=== FILE: README.md ===
# MediaTekDocuments data access, modelled in Dafny

MediaTekDocuments is a library-management desktop client. All of its data
goes through one class, `Access` (`MediaTekDocuments/dal/Access.cs`), a
REST client for the library's API. This project models that class:

- **The single instance.** `GetInstance` builds the instance on the first
  call only. The instance holds an API client for the fixed address
  `https://voyages-dhaussy.com/` and credentials `admin:adminpwd`. This is
  modelled as a state machine run over a sequence of calls (`Access`
  module).
- **Requests.** Each read has a fixed GET path (`genre`, `rayon`, `public`,
  `livre`, `dvd`, `revue`, `document/<id>`, `exemplaire/<id>`). Each
  create, update and delete of a document, book, DVD or periodical builds a
  JSON object literal by string concatenation, without escaping anything.
  It puts the literal into the path (`Requests`, `JsonLiteral`, `Http`).
  - Integers are written as quoted decimals (`Decimal`).
  - The literal builder has an inverse: the model's own reader of the
    concatenated text. The two round-trip in both directions whenever no
    argument contains a double quote. The reader takes every other
    character literally; see "Left out" for backslashes and control
    characters.
  - Every well-formed request can be parsed back into the operation that
    produced it.
  - Without escaping, two different DVDs can post the same request.
- **The answer envelope.** `TraitementRecup` turns the API's answer into a
  list, or stops the process (`Envelope`).
  - The transport is an abstract function from requests to answers.
  - `Environment.Exit` is the outcome `Terminated`.
  - An exception that escapes to the caller is `Raised`.
  - A C# null list is `None`.
- **The boolean reader.** `CustomBooleanJsonConverter.ReadJson` reads a
  string token as a byte (`Byte.Parse` with the integer number style), then
  converts the value to a boolean (`BooleanConverter`).
- **The write reports.** Each write wrapper returns whether the list it got
  back is non-null. The documented intent is true exactly when the API
  answers the success code `"200"`. The code as written reports true for
  every answer that has a code. The model keeps both versions; see
  Findings.

The write wrappers' `<returns>` comments say a write reports whether it
could be carried out. The comment at Access.cs:191 says the list is empty
on success and null on an error. But `TraitementRecup` returns an empty
list for a rejected write, never null, so every rejected write reports
true. This model follows the code (`Access.Write`) and models the intended
behaviour separately (`Access.CheckedWrite`).

`TraitementRecup` can return null: a successful GET whose `result` is JSON
null deserialises to a null list. The model keeps that case. The category
reads then throw when they copy the null list.

## Model

| member | source | states |
|---|---|---|
| Decimal.IntToDecimal | MediaTekDocuments/dal/Access.cs:317 | An `int` argument concatenated into a string is written in canonical form: a leading '-' exactly when it is negative, then digits with no leading zero (zero is written "0") |
| Decimal.IntRoundTrip | MediaTekDocuments/dal/Access.cs:381 | The decimal text written for any integer reads back as that integer, so an integer member loses nothing |
| Decimal.ParseByte | MediaTekDocuments/dal/Access.cs:497 | The byte conversion of a string never yields a value above 255 |
| Decimal.ByteText | MediaTekDocuments/dal/Access.cs:497 | A string of white space, an optional sign, digits, white space and trailing NULs converts to the digits' value when it fits a byte and the sign is not '-', leading zeros included; with '-' only a zero value converts; every other value overflows |
| Decimal.ByteAcceptance | MediaTekDocuments/dal/Access.cs:497 | A string converts to a byte if and only if it is white space, an optional sign, digits, white space and NULs, in that order, with a value that fits a byte and is zero when negative; a NUL before the digits, white space between them or a sign after them fails |
| Decimal.ByteRoundTrip | MediaTekDocuments/dal/Access.cs:497 | Every value 0..255 written in decimal converts back to itself |
| Decimal.ByteOverflow | MediaTekDocuments/dal/Access.cs:497 | A value above 255 written in canonical decimal fails to convert |
| Decimal.ParsedStringsAreNumeric | MediaTekDocuments/dal/Access.cs:497 | A string that converts to a byte holds only digits, white space, sign characters and NULs |
| JsonLiteral.LiteralRoundTrip | MediaTekDocuments/dal/Access.cs:187 | A `{ "name" : "value", ... }` literal built from quote-free names and values parses back to exactly those members, in order |
| JsonLiteral.LiteralSound | MediaTekDocuments/dal/Access.cs:187 | Any text the parser accepts is exactly the literal built from the members it returns, so the parser accepts nothing else |
| JsonLiteral.LiteralInjective | MediaTekDocuments/dal/Access.cs:187 | Two quote-free member lists with the same literal are equal |
| JsonLiteral.UnescapedValueForgesMembers | MediaTekDocuments/dal/Access.cs:187 | Since nothing is escaped, a single value containing quotes produces the same literal as two members |
| JsonLiteral.MembersSourceForm | MediaTekDocuments/dal/Access.cs:187 | Building the member list recursively gives the same text as the left-to-right concatenation of opening, separator and closing pieces |
| JsonLiteral.LiteralIsSourceForm | MediaTekDocuments/dal/Access.cs:187 | The literal equals the left-to-right concatenation that ends with the closing `"}` |
| Requests.ReadRoundTrip | MediaTekDocuments/dal/Access.cs:83-159 | Every read is a GET, and its path is parsed back to the same read |
| Requests.ReadRequestInjective | MediaTekDocuments/dal/Access.cs:83-159 | Distinct reads send distinct requests |
| Requests.ExemplaireCreateTarget | MediaTekDocuments/dal/Access.cs:166-171 | Creating a copy POSTs under `exemplaire`, whatever the serialised copy holds; no document write uses that resource, so the request never reads as one |
| Requests.CreateRoundTrip | MediaTekDocuments/dal/Access.cs:185-192 | A create request, with quote-free arguments, parses back to the same record |
| Requests.UpdateRoundTrip | MediaTekDocuments/dal/Access.cs:206-213 | An update request parses back to the same record when the id has no '/' and no argument has a quote |
| Requests.DeleteRoundTrip | MediaTekDocuments/dal/Access.cs:228-235 | A delete request whose id has no double quote parses back to the same kind and id |
| Requests.WriteRoundTrip | MediaTekDocuments/dal/Access.cs:185-437 | Every well-formed write operation is recovered from the request it sends |
| Requests.WriteRequestInjective | MediaTekDocuments/dal/Access.cs:185-437 | Distinct well-formed writes send distinct requests |
| Requests.DocumentCreateLiteralText | MediaTekDocuments/dal/Access.cs:187 | The document create literal lists id, titre, image, idRayon, idPublic, idGenre, each quoted verbatim |
| Requests.DocumentUpdateLiteralText | MediaTekDocuments/dal/Access.cs:208 | The document update literal lists id, titre, image, idGenre, idPublic, idRayon |
| Requests.LivreLiteralText | MediaTekDocuments/dal/Access.cs:251 | The book literal lists id, isbn, auteur, collection |
| Requests.DvdLiteralText | MediaTekDocuments/dal/Access.cs:317 | The DVD literal lists id, synopsis, realisateur, duree |
| Requests.RevueLiteralText | MediaTekDocuments/dal/Access.cs:381 | The periodical literal lists id, periodicite, delaiMiseADispo |
| Requests.IdLiteralText | MediaTekDocuments/dal/Access.cs:230 | A delete literal is `{ "id" : "<id>"}` |
| Requests.DocumentCreateAsWritten | MediaTekDocuments/dal/Access.cs:185-192 | Creating a document POSTs `document/` followed by the literal with members id, titre, image, idRayon, idPublic, idGenre, each argument quoted verbatim |
| Requests.DocumentUpdateAsWritten | MediaTekDocuments/dal/Access.cs:206-213 | Updating a document PUTs `document/<id>/` followed by the literal with members id, titre, image, idGenre, idPublic, idRayon |
| Requests.LivreCreateAsWritten | MediaTekDocuments/dal/Access.cs:249-256 | Creating a book POSTs `livre/` followed by the literal with members id, isbn, auteur, collection |
| Requests.LivreUpdateAsWritten | MediaTekDocuments/dal/Access.cs:270-277 | Updating a book PUTs `livre/<id>/` followed by the same literal |
| Requests.DvdCreateAsWritten | MediaTekDocuments/dal/Access.cs:315-322 | Creating a DVD POSTs `dvd/` followed by the literal with members id, synopsis, realisateur, duree, the duration written as a quoted decimal |
| Requests.DvdUpdateAsWritten | MediaTekDocuments/dal/Access.cs:336-343 | Updating a DVD PUTs `dvd/<id>/` followed by the same literal |
| Requests.RevueCreateAsWritten | MediaTekDocuments/dal/Access.cs:379-386 | Creating a periodical POSTs `revue/` followed by the literal with members id, periodicite, delaiMiseADispo, the delay written as a quoted decimal |
| Requests.RevueUpdateAsWritten | MediaTekDocuments/dal/Access.cs:400-407 | Updating a periodical PUTs `revue/<id>/` followed by the same literal |
| Requests.DeleteAsWritten | MediaTekDocuments/dal/Access.cs:228-235 | Every delete sends DELETE to the resource, '/', and `{ "id" : "<id>"}` |
| Requests.CreateDvdExample | MediaTekDocuments/dal/Access.cs:315-322 | Creating DVD D1 "Test" by "X" lasting 120 POSTs `dvd/{ "id" : "D1", "synopsis" : "Test", "realisateur" : "X", "duree" : "120"}` |
| Requests.UpdateLiteralIsCreateLiteral | MediaTekDocuments/dal/Access.cs:249-277 | For books, DVDs and periodicals the update literal, written out member by member as the update methods do, is the create literal |
| Requests.DocumentUpdateReordersMembers | MediaTekDocuments/dal/Access.cs:206-208 | The document update carries the same members as the create, but the genre member moves to the fourth position where the create has the shelf |
| Requests.DocumentLiteralsDiffer | MediaTekDocuments/dal/Access.cs:187-208 | For every argument list, the document update literal differs from the create literal: after the shared id, titre and image members comes `"idGenre` where the create has `"idRayon` |
| Requests.DeleteCarriesIdInLiteral | MediaTekDocuments/dal/Access.cs:358-365 | For every id, a delete path is the resource, '/', and the one-member literal, so the id is not a path segment of its own; a quote-free id is read back from that literal |
| Requests.UnescapedDvdCollision | MediaTekDocuments/dal/Access.cs:317-322 | Two different DVDs whose synopsis and director embed forged members post the same create request |
| Envelope.DecodeAll | MediaTekDocuments/dal/Access.cs:462 | Deserialising an array succeeds iff every row decodes; then the list has one element per row, in order |
| Envelope.Recup | MediaTekDocuments/dal/Access.cs:447-475 | Never throws; null only for a successful GET whose result is null; a rejection of any verb gives the empty list; a successful GET whose rows all decode gives all of them, decoded, in order, and a non-empty list comes from nowhere else |
| Envelope.RecupTerminates | MediaTekDocuments/dal/Access.cs:449-473 | The process is stopped exactly when the transport fails, the code is missing, or a successful GET brings back something that is not an array of decodable rows |
| Envelope.RejectionLooksEmpty | MediaTekDocuments/dal/Access.cs:465-468 | A rejected request of any verb reads as an empty list, the same as a successful empty answer |
| Envelope.RecupDecodesRows | MediaTekDocuments/dal/Access.cs:455-463 | A successful GET whose rows all decode returns them all, decoded, in order |
| BooleanConverter.ToBoolean | MediaTekDocuments/dal/Access.cs:497 | A bool passes through; null is false; a float always converts, to true iff non-zero; an integer converts iff it fits 64 bits, to true iff non-zero; any other value fails |
| BooleanConverter.ReadBool | MediaTekDocuments/dal/Access.cs:495-498 | A string succeeds iff it converts to a byte, and is then true iff the byte is non-zero; any other token goes through the general conversion |
| BooleanConverter.QuotedByteIsNumber | MediaTekDocuments/dal/Access.cs:497 | A byte value written as a string reads like the same value written as a number |
| BooleanConverter.DatabaseFlags | MediaTekDocuments/dal/Access.cs:488-498 | The strings "1" and "0" read as true and false |
| BooleanConverter.PaddedFlag | MediaTekDocuments/dal/Access.cs:497 | White space around the digits is accepted |
| BooleanConverter.NulPaddedFlag | MediaTekDocuments/dal/Access.cs:497 | NULs after the number are ignored: "1" followed by U+0000 reads as true |
| BooleanConverter.ByteTextReads | MediaTekDocuments/dal/Access.cs:495-498 | A padded, optionally '+'-signed or zero-led digit string reads as true iff its value is non-zero, and fails when the value does not fit a byte |
| BooleanConverter.NegativeTextFails | MediaTekDocuments/dal/Access.cs:495-498 | A negative digit string fails unless its value is zero, which reads as false |
| BooleanConverter.QuotedOverflowFails | MediaTekDocuments/dal/Access.cs:497 | A quoted number above 255 fails, although the same number unquoted reads as true |
| BooleanConverter.WordFlagsFail | MediaTekDocuments/dal/Access.cs:495-497 | The strings "true" and "false" fail |
| Access.Construct | MediaTekDocuments/dal/Access.cs:51-64 | The constructor either yields a client for the fixed address and credentials, or stops the process |
| Access.GetInstance | MediaTekDocuments/dal/Access.cs:70-77 | An existing instance is returned without change; with no instance, a call whose client connects builds and returns the configured client and stores it, and one whose client fails stops the process |
| Access.RunKeepsOneInstance | MediaTekDocuments/dal/Access.cs:72-76 | Over any sequence of calls: at most one construction, every returned instance is the configured one, only the last call may stop the process, and once built no call stops it |
| Access.FirstCallBuilds | MediaTekDocuments/dal/Access.cs:70-77 | From the initial state, a first call whose client connects builds the configured client once, and it and every later call return it; a first call whose client fails stops the process |
| Access.SingleInstance | MediaTekDocuments/dal/Access.cs:70-77 | From the initial state, all calls that return an instance return the same one |
| Access.Read | MediaTekDocuments/dal/Access.cs:83-159 | A category read never yields null and throws exactly when the list is null; every read stops the process exactly on a fault, a missing code, or an undecodable successful result; a rejection gives the empty list; a successful answer whose rows all decode gives all of them, decoded, in order, and a non-empty list comes from nowhere else |
| Access.PlainReadPassesNull | MediaTekDocuments/dal/Access.cs:113-159 | Book, document, DVD, periodical and copy reads hand a null list back as it is |
| Access.WriteOutcome | MediaTekDocuments/dal/Access.cs:189-199 | A wrapper reports true iff it got a non-null list, and false after a caught exception |
| Access.Write | MediaTekDocuments/dal/Access.cs:185-437 | As written: a write never reports false; it stops the process on a fault or missing code, and reports true otherwise |
| Access.ExemplaireWrite | MediaTekDocuments/dal/Access.cs:166-179 | As written: creating a copy never reports false either |
| Access.CheckedRecup | MediaTekDocuments/dal/Access.cs:447-475 | Corrected envelope processing: null for a rejection, and otherwise the same as the processing as written |
| Access.CheckedWrite | MediaTekDocuments/dal/Access.cs:185-437 | Corrected: a write reports true iff the code is "200", false iff the code is present and not "200", and stops the process otherwise |
| Access.RejectedWriteReportsSuccess | MediaTekDocuments/dal/Access.cs:185-437 | For every rejected write, the written version reports true and the corrected one false |
| Access.WritesAgreeUnlessRejected | MediaTekDocuments/dal/Access.cs:185-437 | The two versions disagree exactly on rejected writes |
| Access.RefusedDeleteExample | MediaTekDocuments/dal/Access.cs:228-243 | Deleting document 00017 against an API answering code "400" reports true as written and false once corrected |

## Left out

- Logging with `Console.WriteLine` is not modelled. It has no effect on results.
- The HTTP transport (`ApiRest.RecupDistant`, the basic-auth header, the connection itself) is not part of this model. It is an arbitrary function from requests to answers.
- Whether obtaining the client throws is a parameter of the constructor.
- Newtonsoft's serialisation and deserialisation internals are not modelled.
  - A result array is a sequence of abstract rows with a per-row decoder that may fail.
  - A `result` member that is missing is treated like a JSON null, because serialising a missing token yields `null`.
- `CreerExemplaire` posts the library's serialisation of an `Exemplaire` with the `yyyy-MM-dd` date converter. The `Exemplaire` class and that serialiser are not part of this model, so the text is a parameter (`Requests.ExemplaireCreateRequest`).
- The code and message members are cast to strings. A cast that throws (a member that is an object or array) is not modelled. `code` is read as an optional string, and the message is only logged.
- `Convert.ToByte` is modelled with invariant-culture white space and signs; other cultures' signs are not modelled.
- Decimal.IntToDecimal: an `int` concatenated into a string uses the current culture's negative sign; the model always writes '-'.
- The readers `JsonLiteral.ParseLiteral`, `Requests.ParseRead` and `Requests.ParseWrite` read the concatenated text literally. A JSON reader also treats `\` as an escape and refuses raw control characters, so an argument with a backslash (such as `C:\img\a.jpg`) or a line break gives text the API may read differently or refuse. The round trips say nothing about what the API makes of such text.
- Floating-point values are modelled as reals. There is no NaN, which the real conversion would read as true.
- Other convertible value types, such as decimals, are not modelled; date tokens and anything else fall under `Other`.
- `GetInstance` is not thread-safe in the source. The model is sequential and does not cover concurrent first calls.
- The controller that delegates every operation to this class is not modelled. It adds no logic.
- Nothing after `Environment.Exit` is modelled: a run of `GetInstance` calls ends at the first `Terminated`.

## Findings

| source | as written | input that shows it | evidently intended | confidence | as-written member | corrected member |
|---|---|---|---|---|---|---|
| MediaTekDocuments/dal/Access.cs:193 | Each write wrapper returns `liste != null`. `TraitementRecup` starts from an empty list and keeps it when the code is not "200", so the wrapper returns true for a rejected write. | `SupprimerDocument("00017")` against an API answering `{"code":"400"}` | The wrappers' documentation and their inline comment: an empty list means success, null means an error, so a rejected write reports false | not executed | Access.RejectedWriteReportsSuccess | Access.CheckedWrite |

=== FILE: access.dfy ===
/** The data-access class: a lazily built single instance holding the API
    client, the read operations, and the write operations that report
    whether the API took the request. */
module Access {
  import opened Base
  import opened Http
  import opened Requests
  import opened Envelope

  /** The address of the API and the credentials the client is built with. */
  const UriApi: string := "https://voyages-dhaussy.com/"
  const Credential: string := "admin:adminpwd"

  /** The API client the private constructor obtains. */
  datatype Client = Client(uri: string, credential: string)

  /** The class's static state: the instance, if one was built, and how many
      constructions have completed. */
  datatype Singleton = Singleton(instance: Option<Client>, constructions: nat)

  const Initial: Singleton := Singleton(None, 0)

  /** The private constructor; `connects` is false when obtaining the client
      throws, in which case the process is stopped. */
  function Construct(connects: bool): (r: Outcome<Client>)
    ensures r.Returned? <==> connects
    ensures r.Returned? ==> r.value.uri == UriApi && r.value.credential == Credential
    ensures !r.Raised?
  {
    if connects then Returned(Client(UriApi, Credential)) else Terminated
  }

  /** `GetInstance`: builds the instance on the first call only. */
  function GetInstance(s: Singleton, connects: bool): (r: (Outcome<Client>, Singleton))
    ensures s.instance.Some? ==> r == (Returned(s.instance.value), s)
    ensures r.0.Returned? ==> r.1.instance == Some(r.0.value)
    ensures r.1 != s ==> s.instance.None? && r.1.constructions == s.constructions + 1
    ensures r.0.Terminated? ==> r.1 == s
    ensures s.instance.None? ==> (r.0.Returned? <==> connects)
    ensures s.instance.None? && connects ==>
      r == (Returned(Client(UriApi, Credential)), Singleton(Some(Client(UriApi, Credential)), s.constructions + 1))
  {
    if s.instance.Some? then (Returned(s.instance.value), s)
    else
      match Construct(connects)
      case Returned(c) => (Returned(c), Singleton(Some(c), s.constructions + 1))
      case _ => (Terminated, s)
  }

  /** A sequence of calls to `GetInstance`; the i-th call's client either
      connects or not. A stopped process answers no further call. */
  function Run(s: Singleton, calls: seq<bool>): (r: (Singleton, seq<Outcome<Client>>))
    ensures |r.1| <= |calls|
    decreases |calls|
  {
    if |calls| == 0 then (s, [])
    else
      var (o, s1) := GetInstance(s, calls[0]);
      if o.Terminated? then (s1, [o])
      else
        var (s2, os) := Run(s1, calls[1..]);
        (s2, [o] + os)
  }

  /** Either nothing was built yet, or exactly one instance, the one for the
      configured address and credentials. */
  predicate Consistent(s: Singleton) {
    (s.instance.None? && s.constructions == 0)
    || (s.instance == Some(Client(UriApi, Credential)) && s.constructions == 1)
  }

  /** Every call returns the one configured instance; it is built at most
      once; only the last call of a run can stop the process; and once an
      instance exists no call stops the process. */
  lemma {:induction false} RunKeepsOneInstance(s: Singleton, calls: seq<bool>)
    requires Consistent(s)
    ensures Consistent(Run(s, calls).0)
    ensures forall i :: 0 <= i < |Run(s, calls).1| && Run(s, calls).1[i].Returned? ==>
      Run(s, calls).1[i].value == Client(UriApi, Credential)
    ensures forall i :: 0 <= i < |Run(s, calls).1| && Run(s, calls).1[i].Terminated? ==>
      i == |Run(s, calls).1| - 1
    ensures forall i :: 0 <= i < |Run(s, calls).1| ==> !Run(s, calls).1[i].Raised?
    ensures s.instance.Some? ==> forall i :: 0 <= i < |Run(s, calls).1| ==> Run(s, calls).1[i] == Returned(Client(UriApi, Credential))
    ensures s.instance.Some? ==> |Run(s, calls).1| == |calls|
    ensures s.instance.Some? ==> Run(s, calls).0 == s
    decreases |calls|
  {
    if |calls| != 0 {
      var (o, s1) := GetInstance(s, calls[0]);
      if !o.Terminated? {
        RunKeepsOneInstance(s1, calls[1..]);
        var os := Run(s1, calls[1..]).1;
        assert Run(s, calls).1 == [o] + os;
        assert forall i :: 1 <= i < |[o] + os| ==> ([o] + os)[i] == os[i - 1];
      }
    }
  }

  /** From the initial state, the first call builds and returns the
      configured client when its client connects, and every later call
      returns that same client; otherwise the first call stops the process. */
  lemma FirstCallBuilds(calls: seq<bool>)
    requires 0 < |calls|
    ensures calls[0] ==> Run(Initial, calls).0 == Singleton(Some(Client(UriApi, Credential)), 1)
    ensures calls[0] ==> Run(Initial, calls).1 == seq(|calls|, i => Returned(Client(UriApi, Credential)))
    ensures !calls[0] ==> Run(Initial, calls) == (Initial, [Terminated])
  {
    if calls[0] {
      var s1 := Singleton(Some(Client(UriApi, Credential)), 1);
      assert GetInstance(Initial, true) == (Returned(Client(UriApi, Credential)), s1);
      RunKeepsOneInstance(s1, calls[1..]);
      var os := Run(s1, calls[1..]).1;
      assert Run(Initial, calls).1 == [Returned(Client(UriApi, Credential))] + os;
      assert forall i :: 1 <= i < |calls| ==> ([Returned(Client(UriApi, Credential))] + os)[i] == os[i - 1];
    }
  }

  /** From the initial state: any two answers that return an instance return
      the same one, and at most one construction completes. */
  lemma SingleInstance(calls: seq<bool>)
    ensures Run(Initial, calls).0.constructions <= 1
    ensures forall i, j ::
      && 0 <= i < |Run(Initial, calls).1| && 0 <= j < |Run(Initial, calls).1|
      && Run(Initial, calls).1[i].Returned? && Run(Initial, calls).1[j].Returned?
      ==> Run(Initial, calls).1[i] == Run(Initial, calls).1[j]
  {
    RunKeepsOneInstance(Initial, calls);
  }

  /** The client's request function. It is not modelled: any answer is
      possible for any request. */
  type Transport<R> = Request -> Response<R>

  /** The read operations. A category read copies the list into a new list,
      which throws when the list is null. */
  function Read<R, T>(op: ReadOp, api: Transport<R>, decode: R -> Option<T>): (r: Outcome<Option<seq<T>>>)
    ensures IsCategoryRead(op) ==> r != Returned(None)
    ensures r == Raised <==> IsCategoryRead(op) && api(ReadRequest(op)) == Envelope(Some(SuccessCode), JsonNull)
    ensures r == Terminated <==>
      var answer := api(ReadRequest(op));
      answer.Fault? || answer.code.None?
      || (answer.code == Some(SuccessCode)
          && (answer.result.NotAList?
              || (answer.result.Rows? && exists i :: 0 <= i < |answer.result.rows| && decode(answer.result.rows[i]).None?)))
    ensures r.Returned? && r.value.Some? && r.value.value != [] ==>
      var answer := api(ReadRequest(op));
      answer.Envelope? && answer.code == Some(SuccessCode) && answer.result.Rows?
      && |r.value.value| == |answer.result.rows|
      && forall i :: 0 <= i < |answer.result.rows| ==> decode(answer.result.rows[i]) == Some(r.value.value[i])
    ensures Rejected(api(ReadRequest(op))) ==> r == Returned(Some([]))
    ensures
      var answer := api(ReadRequest(op));
      answer.Envelope? && answer.code == Some(SuccessCode) && answer.result.Rows?
      && (forall i :: 0 <= i < |answer.result.rows| ==> decode(answer.result.rows[i]).Some?)
      ==> (r.Returned? && r.value.Some? && |r.value.value| == |answer.result.rows|
           && forall i :: 0 <= i < |answer.result.rows| ==> decode(answer.result.rows[i]) == Some(r.value.value[i]))
  {
    var l := Recup(GET, api(ReadRequest(op)), decode);
    if IsCategoryRead(op) && l == Returned(None) then Raised else l
  }

  /** Outside the category reads the list is handed back as it is, null
      included. */
  lemma PlainReadPassesNull<R, T>(op: ReadOp, api: Transport<R>, decode: R -> Option<T>)
    requires !IsCategoryRead(op)
    requires api(ReadRequest(op)) == Envelope(Some(SuccessCode), JsonNull)
    ensures Read(op, api, decode) == Returned(None)
  {
  }

  /** The outcome a write wrapper reports: a caught exception is false,
      otherwise whether the list is not null. */
  function WriteOutcome<T>(o: Outcome<Option<seq<T>>>): (r: Outcome<bool>)
    ensures !r.Raised?
    ensures r.Terminated? <==> o.Terminated?
    ensures r == Returned(true) <==> o.Returned? && o.value.Some?
  {
    match o
    case Returned(l) => Returned(l.Some?)
    case Terminated => Terminated
    case Raised => Returned(false)
  }

  /** Sending a request for its effect, as the write wrappers do. */
  function Submit<R>(req: Request, api: Transport<R>): (r: Outcome<bool>)
    ensures req.verb != GET ==> r != Returned(false)
    ensures req.verb != GET ==> (r == Terminated <==> api(req).Fault? || api(req).code.None?)
  {
    WriteOutcome(Recup(req.verb, api(req), (row: R) => Some(row)))
  }

  /** The document, book, DVD and periodical writes as written: they stop
      the process when the API cannot be reached or answers without a code,
      and report true for any other answer, rejected or not. */
  function Write<R>(op: WriteOp, api: Transport<R>): (r: Outcome<bool>)
    ensures r != Returned(false) && !r.Raised?
    ensures r == Terminated <==> api(WriteRequest(op)).Fault? || api(WriteRequest(op)).code.None?
    ensures r == Returned(true) <==> api(WriteRequest(op)).Envelope? && api(WriteRequest(op)).code.Some?
  {
    Submit(WriteRequest(op), api)
  }

  /** `CreerExemplaire` as written: the same report as the other writes. */
  function ExemplaireWrite<R>(json: string, api: Transport<R>): (r: Outcome<bool>)
    ensures r != Returned(false) && !r.Raised?
    ensures r == Returned(true) <==> api(ExemplaireCreateRequest(json)).Envelope? && api(ExemplaireCreateRequest(json)).code.Some?
  {
    Submit(ExemplaireCreateRequest(json), api)
  }

  /** A rejection: an answer whose code is present and is not success. */
  predicate Rejected<R>(response: Response<R>) {
    response.Envelope? && response.code.Some? && response.code.value != SuccessCode
  }

  /** The answer processing the write wrappers rely on: a rejection gives a
      null list. It differs from `Recup` only there. */
  function CheckedRecup<R, T>(verb: Verb, response: Response<R>, decode: R -> Option<T>): (r: Outcome<Option<seq<T>>>)
    ensures r == Returned(None) <==>
      Rejected(response) || (verb == GET && response == Envelope(Some(SuccessCode), JsonNull))
    ensures r != Recup(verb, response, decode) ==>
      Rejected(response) && Recup(verb, response, decode) == Returned(Some([]))
  {
    if Rejected(response) then Returned(None) else Recup(verb, response, decode)
  }

  /** A write that reports what the API answered: true for success, false
      for a rejection, and a stopped process otherwise. */
  function CheckedSubmit<R>(req: Request, api: Transport<R>): (r: Outcome<bool>)
    requires req.verb != GET
    ensures r == Returned(true) <==> api(req).Envelope? && api(req).code == Some(SuccessCode)
    ensures r == Returned(false) <==> Rejected(api(req))
    ensures r == Terminated <==> api(req).Fault? || api(req).code.None?
  {
    WriteOutcome(CheckedRecup(req.verb, api(req), (row: R) => Some(row)))
  }

  /** The writes with the report their documentation describes. */
  function CheckedWrite<R>(op: WriteOp, api: Transport<R>): (r: Outcome<bool>)
    ensures r == Returned(true) <==> api(WriteRequest(op)).Envelope? && api(WriteRequest(op)).code == Some(SuccessCode)
    ensures r == Returned(false) <==> Rejected(api(WriteRequest(op)))
    ensures r == Terminated <==> api(WriteRequest(op)).Fault? || api(WriteRequest(op)).code.None?
  {
    CheckedSubmit(WriteRequest(op), api)
  }

  /** A rejected write reports success as written, and failure once
      corrected. */
  lemma RejectedWriteReportsSuccess<R>(op: WriteOp, api: Transport<R>)
    requires Rejected(api(WriteRequest(op)))
    ensures Write(op, api) == Returned(true)
    ensures CheckedWrite(op, api) == Returned(false)
  {
  }

  /** The two differ on rejections only. */
  lemma WritesAgreeUnlessRejected<R>(op: WriteOp, api: Transport<R>)
    ensures Write(op, api) == CheckedWrite(op, api) <==> !Rejected(api(WriteRequest(op)))
  {
  }

  /** A concrete case: deleting a document the API refuses to delete. */
  lemma RefusedDeleteExample()
    ensures var api: Transport<int> := (req: Request) => Envelope(Some("400"), JsonNull);
      Write(Delete(DocumentKind, "00017"), api) == Returned(true)
      && CheckedWrite(Delete(DocumentKind, "00017"), api) == Returned(false)
  {
    var api: Transport<int> := (req: Request) => Envelope(Some("400"), JsonNull);
    RejectedWriteReportsSuccess(Delete(DocumentKind, "00017"), api);
  }
}

=== FILE: base.dfy ===
/** Small shared vocabulary: an optional value, standing for a .NET reference
    that may be null or a conversion that may throw. */
module Base {

  datatype Option<+T> = None | Some(value: T)
}

=== FILE: boolean_converter.dfy ===
/** The boolean reader the data-access class installs when it deserialises
    rows: a string token is first read as a byte, every value then goes
    through the general object-to-boolean conversion. */
module BooleanConverter {
  import opened Base
  import opened Decimal

  /** The JSON reader keeps integers that fit a 64-bit signed integer as
      such; wider ones become big integers, which have no boolean conversion. */
  const Int64Min: int := -0x8000_0000_0000_0000
  const Int64Max: int := 0x7FFF_FFFF_FFFF_FFFF

  /** The value under the reader when a boolean member is read. Strings that
      look like dates are read as dates and fall under `Other`, with every
      other token the conversion refuses. */
  datatype Token =
    | Bool(b: bool)
    | Text(s: string)
    | Integer(i: int)
    | Float(f: real)
    | Null
    | Other

  /** The conversion of an already-read value: a number is true when it is
      not zero, a null is false, and anything else fails (`None`). */
  function ToBoolean(t: Token): (r: Option<bool>)
    requires !t.Text?
    ensures t.Bool? ==> r == Some(t.b)
    ensures t.Null? ==> r == Some(false)
    ensures t.Integer? ==> (r.Some? <==> Int64Min <= t.i <= Int64Max)
    ensures t.Integer? && r.Some? ==> (r.value <==> t.i != 0)
    ensures t.Float? ==> r == Some(t.f != 0.0)
    ensures t.Other? ==> r.None?
  {
    match t
    case Bool(b) => Some(b)
    case Integer(i) => if Int64Min <= i <= Int64Max then Some(i != 0) else None
    case Float(f) => Some(f != 0.0)
    case Null => Some(false)
    case Other => None
  }

  /** `ReadJson`: a string is converted to a byte first, and the byte then to
      a boolean; every other token is converted directly. `None` is the
      exception that stops deserialisation. */
  function ReadBool(t: Token): (r: Option<bool>)
    ensures t.Text? ==> (r.Some? <==> ParseByte(t.s).Some?)
    ensures t.Text? && r.Some? ==> (r.value <==> ParseByte(t.s).value != 0)
    ensures t.Text? && r.Some? ==> forall i :: 0 <= i < |t.s| ==> IsNumberChar(t.s[i])
    ensures !t.Text? ==> r == ToBoolean(t)
  {
    if t.Text? then
      match ParseByte(t.s)
      case None => None
      case Some(n) =>
        ParsedStringsAreNumeric(t.s);
        ToBoolean(Integer(n))
    else ToBoolean(t)
  }

  /** A flag written as a quoted byte reads as the same flag written as a
      number. */
  lemma QuotedByteIsNumber(n: nat)
    requires n <= ByteMax
    ensures ReadBool(Text(NatToDecimal(n))) == ReadBool(Integer(n))
    ensures ReadBool(Text(NatToDecimal(n))) == Some(n != 0)
  {
    ByteRoundTrip(n);
  }

  /** The flags the API sends as "1" and "0" read as true and false. */
  lemma DatabaseFlags()
    ensures ReadBool(Text("1")) == Some(true)
    ensures ReadBool(Text("0")) == Some(false)
  {
    QuotedByteIsNumber(1);
    QuotedByteIsNumber(0);
    assert NatToDecimal(1) == "1";
    assert NatToDecimal(0) == "0";
  }

  /** A string of digits, padded with white space and trailing NULs and
      optionally signed '+', reads as true iff its value is non-zero, and
      fails when the value does not fit a byte; leading zeros change
      nothing. */
  lemma ByteTextReads(w1: string, sign: string, d: string, w2: string, z: string)
    requires AllWhite(w1) && AllWhite(w2) && AllNuls(z)
    requires sign == "" || sign == "+"
    requires 0 < |d| && AllDigits(d)
    ensures ReadBool(Text(w1 + (sign + d) + w2 + z))
      == if DigitsValue(d) <= ByteMax then Some(DigitsValue(d) != 0) else None
  {
    ByteText(w1, sign, d, w2, z);
  }

  /** A negative string fails the byte conversion unless its value is zero,
      which reads as false. */
  lemma NegativeTextFails(w1: string, d: string, w2: string, z: string)
    requires AllWhite(w1) && AllWhite(w2) && AllNuls(z)
    requires 0 < |d| && AllDigits(d)
    ensures ReadBool(Text(w1 + ("-" + d) + w2 + z))
      == if DigitsValue(d) == 0 then Some(false) else None
  {
    ByteText(w1, "-", d, w2, z);
  }

  /** NULs after the number are ignored. */
  lemma NulPaddedFlag()
    ensures ReadBool(Text("1\0")) == Some(true)
  {
    OneDigit();
    assert AllNuls("\0");
    ByteTextReads("", "", "1", "", "\0");
    NulPaddedText();
  }

  lemma NulPaddedText()
    ensures "" + ("" + "1") + "" + "\0" == "1\0"
  {
  }

  lemma OneDigit()
    ensures AllDigits("1") && DigitsValue("1") == 1
  {
  }

  /** White space around the digits is allowed. */
  lemma PaddedFlag()
    ensures ReadBool(Text(" 1 ")) == Some(true)
  {
    OneDigit();
    assert AllWhite(" ");
    ByteTextReads(" ", "", "1", " ", "");
    PaddedText();
  }

  lemma PaddedText()
    ensures " " + ("" + "1") + " " + "" == " 1 "
  {
  }

  /** A quoted number above a byte fails, although the same number unquoted
      reads as true. */
  lemma QuotedOverflowFails(n: nat)
    requires ByteMax < n <= Int64Max
    ensures ReadBool(Text(NatToDecimal(n))) == None
    ensures ReadBool(Integer(n)) == Some(true)
  {
    ByteOverflow(n);
  }

  /** A boolean written as the text "true" or "false" fails: only numeric
      strings get through the byte conversion. */
  lemma WordFlagsFail()
    ensures ReadBool(Text("true")) == None
    ensures ReadBool(Text("false")) == None
  {
    assert !IsNumberChar("true"[0]);
    assert !IsNumberChar("false"[0]);
  }
}

=== FILE: decimal.dfy ===
/** Decimal text as the .NET runtime writes and reads it: `Int32.ToString()`
    when an integer is concatenated into a string, and `Convert.ToByte(string)`
    (that is, `Byte.Parse` with `NumberStyles.Integer`) when a boolean field
    arrives as a numeric string. */
module Decimal {
  import opened Base

  /** The range of a C# `int`. */
  newtype int32 = x: int | -0x8000_0000 <= x < 0x8000_0000

  predicate IsDigit(c: char) {
    '0' <= c <= '9'
  }

  predicate AllDigits(s: string) {
    forall i :: 0 <= i < |s| ==> IsDigit(s[i])
  }

  function DigitValue(c: char): (d: nat)
    requires IsDigit(c)
    ensures d < 10
  {
    (c as int) - ('0' as int)
  }

  function DigitChar(d: nat): (c: char)
    requires d < 10
    ensures IsDigit(c) && DigitValue(c) == d
  {
    ('0' as int + d) as char
  }

  /** The value of a digit string, most significant digit first. */
  function DigitsValue(s: string): nat
    requires AllDigits(s)
  {
    if |s| == 0 then 0 else DigitsValue(s[..|s| - 1]) * 10 + DigitValue(s[|s| - 1])
  }

  /** The shortest decimal rendering of `n`: non-empty, digits only, no
      leading zero, and it reads back as `n`. */
  function NatToDecimal(n: nat): (s: string)
    ensures 0 < |s| && AllDigits(s)
    ensures DigitsValue(s) == n
    ensures s[0] == '0' ==> n == 0 && s == "0"
  {
    if n < 10 then [DigitChar(n)]
    else
      var prefix := NatToDecimal(n / 10);
      var s := prefix + [DigitChar(n % 10)];
      assert s[..|s| - 1] == prefix;
      s
  }

  /** How C# renders an `int` inside a string concatenation, assuming the
      current culture's negative sign is '-'. */
  function IntToDecimal(i: int): (s: string)
    ensures 0 < |s|
    ensures i < 0 <==> s[0] == '-'
    ensures i < 0 ==> AllDigits(s[1..])
    ensures i >= 0 ==> AllDigits(s)
    ensures i >= 0 && s[0] == '0' ==> s == "0"
    ensures i < 0 ==> 1 < |s| && s[1] != '0'
  {
    if i < 0 then "-" + NatToDecimal(-i) else NatToDecimal(i)
  }

  /** A strict reader for the decimal integers IntToDecimal writes: an
      optional '-' and at least one digit, nothing else. */
  function ParseInt(s: string): (r: Option<int>)
    ensures r.Some? && r.value < 0 ==> 0 < |s| && s[0] == '-'
  {
    if 1 < |s| && s[0] == '-' && AllDigits(s[1..]) then
      var v: int := 0 - DigitsValue(s[1..]) as int;
      Some(v)
    else if 0 < |s| && AllDigits(s) then Some(DigitsValue(s))
    else None
  }

  lemma IntRoundTrip(i: int)
    ensures ParseInt(IntToDecimal(i)) == Some(i)
  {
    if i < 0 {
      assert IntToDecimal(i)[1..] == NatToDecimal(-i);
    }
  }

  /** The characters the .NET number parser skips around a number. */
  predicate IsWhite(c: char) {
    c == ' ' || '\t' <= c <= '\r'
  }

  /** Leading white space removed; what was removed is all white space. */
  function TrimStart(s: string): (r: string)
    ensures |r| <= |s| && r == s[|s| - |r|..]
    ensures forall i :: 0 <= i < |s| - |r| ==> IsWhite(s[i])
    ensures |r| == 0 || !IsWhite(r[0])
  {
    if 0 < |s| && IsWhite(s[0]) then TrimStart(s[1..]) else s
  }

  /** Trailing white space removed; what was removed is all white space. */
  function TrimEnd(s: string): (r: string)
    ensures |r| <= |s| && r == s[..|r|]
    ensures forall i :: |r| <= i < |s| ==> IsWhite(s[i])
    ensures |r| == 0 || !IsWhite(r[|r| - 1])
  {
    if 0 < |s| && IsWhite(s[|s| - 1]) then TrimEnd(s[..|s| - 1]) else s
  }

  /** Trailing NUL characters removed; what was removed is all NULs. The
      .NET number parser ignores NULs at the very end of its input. */
  function TrimNuls(s: string): (r: string)
    ensures |r| <= |s| && r == s[..|r|]
    ensures forall i :: |r| <= i < |s| ==> s[i] == '\0'
    ensures |r| == 0 || r[|r| - 1] != '\0'
  {
    if 0 < |s| && s[|s| - 1] == '\0' then TrimNuls(s[..|s| - 1]) else s
  }

  const ByteMax: nat := 255

  /** The number itself, once the surroundings are removed: one optional
      sign and at least one digit. A value above 255, or a negative value
      other than zero, overflows; any other shape is a format error. Both
      errors are `None`. */
  function ParseSignedDigits(t: string): (r: Option<nat>)
    ensures r.Some? ==> r.value <= ByteMax
  {
    if 0 < |t| && (t[0] == '+' || t[0] == '-') then
      var digits := t[1..];
      if 0 < |digits| && AllDigits(digits) then
        var v := DigitsValue(digits);
        if t[0] == '-' then (if v == 0 then Some(0) else None)
        else if v <= ByteMax then Some(v) else None
      else None
    else if 0 < |t| && AllDigits(t) then
      var v := DigitsValue(t);
      if v <= ByteMax then Some(v) else None
    else None
  }

  /** `Convert.ToByte(string)`: leading white space, one optional sign, at
      least one digit, trailing white space, then trailing NULs. */
  function ParseByte(s: string): (r: Option<nat>)
    ensures r.Some? ==> r.value <= ByteMax
  {
    ParseSignedDigits(TrimEnd(TrimStart(TrimNuls(s))))
  }

  /** Characters that may appear anywhere in a string Byte.Parse accepts. */
  predicate IsNumberChar(c: char) {
    IsDigit(c) || IsWhite(c) || c == '+' || c == '-' || c == '\0'
  }

  predicate AllWhite(w: string) {
    forall i :: 0 <= i < |w| ==> IsWhite(w[i])
  }

  predicate AllNuls(z: string) {
    forall i :: 0 <= i < |z| ==> z[i] == '\0'
  }

  lemma {:induction false} TrimStartPast(w: string, y: string)
    requires AllWhite(w)
    requires |y| == 0 || !IsWhite(y[0])
    ensures TrimStart(w + y) == y
    decreases |w|
  {
    if |w| == 0 {
      assert w + y == y;
    } else {
      assert (w + y)[1..] == w[1..] + y;
      TrimStartPast(w[1..], y);
    }
  }

  lemma {:induction false} TrimEndPast(y: string, w: string)
    requires AllWhite(w)
    requires |y| == 0 || !IsWhite(y[|y| - 1])
    ensures TrimEnd(y + w) == y
    decreases |w|
  {
    if |w| == 0 {
      assert y + w == y;
    } else {
      assert (y + w)[..|y + w| - 1] == y + w[..|w| - 1];
      TrimEndPast(y, w[..|w| - 1]);
    }
  }

  lemma {:induction false} TrimNulsPast(y: string, z: string)
    requires AllNuls(z)
    requires |y| == 0 || y[|y| - 1] != '\0'
    ensures TrimNuls(y + z) == y
    decreases |z|
  {
    if |z| == 0 {
      assert y + z == y;
    } else {
      assert (y + z)[..|y + z| - 1] == y + z[..|z| - 1];
      TrimNulsPast(y, z[..|z| - 1]);
    }
  }

  /** The sign and digits, read on their own. */
  lemma SignedDigitsValue(sign: string, d: string)
    requires sign == "" || sign == "+" || sign == "-"
    requires 0 < |d| && AllDigits(d)
    ensures ParseSignedDigits(sign + d)
      == if sign == "-" then (if DigitsValue(d) == 0 then Some(0) else None)
         else if DigitsValue(d) <= ByteMax then Some(DigitsValue(d)) else None
  {
    if sign == "" {
      assert sign + d == d;
    } else {
      assert (sign + d)[0] == sign[0];
      assert (sign + d)[1..] == d;
    }
  }

  /** Padding around a number is removed whatever its length. */
  lemma TrimmedBody(w1: string, x: string, w2: string, z: string)
    requires AllWhite(w1) && AllWhite(w2) && AllNuls(z)
    requires 0 < |x| && !IsWhite(x[0]) && !IsWhite(x[|x| - 1]) && x[|x| - 1] != '\0'
    ensures TrimEnd(TrimStart(TrimNuls(w1 + x + w2 + z))) == x
  {
    var tail := x + w2;
    var body := w1 + tail;
    LastOfPadded(x, w2);
    assert body[|body| - 1] == tail[|tail| - 1];
    assert w1 + x + w2 + z == body + z;
    TrimNulsPast(body, z);
    TrimStartPast(w1, tail);
    TrimEndPast(x, w2);
  }

  lemma LastOfPadded(x: string, w2: string)
    requires AllWhite(w2)
    requires 0 < |x| && x[|x| - 1] != '\0'
    ensures (x + w2)[|x + w2| - 1] != '\0'
  {
    if |w2| != 0 {
      assert (x + w2)[|x + w2| - 1] == w2[|w2| - 1];
    }
  }

  /** Every string of the accepted shape, however it is padded, signed or
      zero-led: white space, an optional sign, digits, white space, NULs. It
      reads as the digits' value when that fits a byte and the sign is not
      '-'; with '-', only a zero value is accepted; anything else overflows. */
  lemma ByteText(w1: string, sign: string, d: string, w2: string, z: string)
    requires AllWhite(w1) && AllWhite(w2) && AllNuls(z)
    requires sign == "" || sign == "+" || sign == "-"
    requires 0 < |d| && AllDigits(d)
    ensures ParseByte(w1 + (sign + d) + w2 + z)
      == if sign == "-" then (if DigitsValue(d) == 0 then Some(0) else None)
         else if DigitsValue(d) <= ByteMax then Some(DigitsValue(d)) else None
  {
    var x := sign + d;
    SignedDigitsEnds(sign, d);
    TrimmedBody(w1, x, w2, z);
    SignedDigitsValue(sign, d);
    assert ParseByte(w1 + x + w2 + z) == ParseSignedDigits(x);
  }

  lemma SignedDigitsEnds(sign: string, d: string)
    requires sign == "" || sign == "+" || sign == "-"
    requires 0 < |d| && AllDigits(d)
    ensures var x := sign + d;
      0 < |x| && !IsWhite(x[0]) && !IsWhite(x[|x| - 1]) && x[|x| - 1] != '\0'
  {
    var x := sign + d;
    assert x[|x| - 1] == d[|d| - 1];
    if sign == "" { assert x[0] == d[0]; } else { assert x[0] == sign[0]; }
  }

  /** Every byte value written in decimal parses back to itself. */
  lemma ByteRoundTrip(n: nat)
    requires n <= ByteMax
    ensures ParseByte(NatToDecimal(n)) == Some(n)
  {
    var s := NatToDecimal(n);
    ByteText("", "", s, "", "");
    assert "" + ("" + s) + "" + "" == s;
  }

  /** A value too large for a byte, written in canonical decimal, overflows. */
  lemma ByteOverflow(n: nat)
    requires ByteMax < n
    ensures ParseByte(NatToDecimal(n)) == None
  {
    var s := NatToDecimal(n);
    ByteText("", "", s, "", "");
    assert "" + ("" + s) + "" + "" == s;
  }

  predicate AllNumberChars(s: string) {
    forall i :: 0 <= i < |s| ==> IsNumberChar(s[i])
  }

  lemma NumberCharsConcat(a: string, b: string)
    requires AllNumberChars(a) && AllNumberChars(b)
    ensures AllNumberChars(a + b)
  {
    assert forall i :: |a| <= i < |a + b| ==> (a + b)[i] == b[i - |a|];
  }

  /** A string that parses holds only digits, white space, signs and
      trailing NULs: any other character is a format error. */
  lemma ParsedStringsAreNumeric(s: string)
    requires ParseByte(s).Some?
    ensures forall i :: 0 <= i < |s| ==> IsNumberChar(s[i])
  {
    var w1, sign, d, w2, z := ParsedShape(s);
    assert AllNumberChars(sign);
    NumberCharsConcat(sign, d);
    NumberCharsConcat(w1, sign + d);
    NumberCharsConcat(w1 + (sign + d), w2);
    NumberCharsConcat(w1 + (sign + d) + w2, z);
  }

  /** `s` is white space, an optional sign, digits, white space and NULs,
      in that order. */
  predicate ByteShape(s: string, w1: string, sign: string, d: string, w2: string, z: string) {
    && AllWhite(w1) && AllWhite(w2) && AllNuls(z)
    && (sign == "" || sign == "+" || sign == "-")
    && 0 < |d| && AllDigits(d)
    && s == w1 + (sign + d) + w2 + z
  }

  /** The shape with a value a byte holds: negative only when zero. */
  predicate AcceptedShape(s: string, w1: string, sign: string, d: string, w2: string, z: string) {
    && ByteShape(s, w1, sign, d, w2, z)
    && DigitsValue(d) <= ByteMax
    && (sign == "-" ==> DigitsValue(d) == 0)
  }

  /** Exactly the strings of that shape whose value fits a byte, negative
      ones only when zero, convert: anything else, such as a NUL before the
      digits, a sign after them or white space between them, fails. */
  lemma ByteAcceptance(s: string)
    ensures ParseByte(s).Some? <==>
      exists w1, sign, d, w2, z :: AcceptedShape(s, w1, sign, d, w2, z)
  {
    if ParseByte(s).Some? {
      var w1, sign, d, w2, z := ParsedShape(s);
      assert AcceptedShape(s, w1, sign, d, w2, z);
    } else if exists w1, sign, d, w2, z :: AcceptedShape(s, w1, sign, d, w2, z) {
      var w1, sign, d, w2, z :| AcceptedShape(s, w1, sign, d, w2, z);
      ByteText(w1, sign, d, w2, z);
      assert false;
    }
  }

  /** The pieces of an accepted string: what the trimming removed, and the
      sign and digits it kept. */
  lemma ParsedShape(s: string) returns (w1: string, sign: string, d: string, w2: string, z: string)
    requires ParseByte(s).Some?
    ensures AcceptedShape(s, w1, sign, d, w2, z)
  {
    var t;
    w1, t, w2, z := TrimPieces(s);
    sign, d := SignPieces(t);
  }

  /** What the three trimming steps remove, around what they keep. */
  lemma TrimPieces(s: string) returns (w1: string, t: string, w2: string, z: string)
    ensures t == TrimEnd(TrimStart(TrimNuls(s)))
    ensures AllWhite(w1) && AllWhite(w2) && AllNuls(z)
    ensures s == w1 + t + w2 + z
  {
    var u := TrimNuls(s);
    z := NulPiece(s);
    var a := TrimStart(u);
    w1 := LeadPiece(u);
    t := TrimEnd(a);
    w2 := TrailPiece(a);
    Regroup(s, u, z, w1, a, t, w2);
  }

  lemma Regroup(s: string, u: string, z: string, w1: string, a: string, t: string, w2: string)
    requires s == u + z && u == w1 + a && a == t + w2
    ensures s == w1 + t + w2 + z
  {
    assert w1 + (t + w2) == w1 + t + w2;
  }

  lemma NulPiece(s: string) returns (z: string)
    ensures AllNuls(z) && s == TrimNuls(s) + z
  {
    var u := TrimNuls(s);
    z := s[|u|..];
    assert u == s[..|u|];
    assert s == s[..|u|] + s[|u|..];
    assert forall i :: 0 <= i < |z| ==> z[i] == s[|u| + i];
  }

  lemma LeadPiece(u: string) returns (w1: string)
    ensures AllWhite(w1) && u == w1 + TrimStart(u)
  {
    var a := TrimStart(u);
    var k := |u| - |a|;
    w1 := u[..k];
    assert a == u[k..];
    assert u == u[..k] + u[k..];
    assert forall i :: 0 <= i < k ==> w1[i] == u[i];
  }

  lemma TrailPiece(a: string) returns (w2: string)
    ensures AllWhite(w2) && a == TrimEnd(a) + w2
  {
    var t := TrimEnd(a);
    w2 := a[|t|..];
    assert t == a[..|t|];
    assert a == a[..|t|] + a[|t|..];
    assert forall i :: 0 <= i < |w2| ==> w2[i] == a[|t| + i];
  }

  /** The sign and digits of a number ParseSignedDigits accepts. */
  lemma SignPieces(t: string) returns (sign: string, d: string)
    requires ParseSignedDigits(t).Some?
    ensures t == sign + d
    ensures sign == "" || sign == "+" || sign == "-"
    ensures 0 < |d| && AllDigits(d)
    ensures DigitsValue(d) <= ByteMax && (sign == "-" ==> DigitsValue(d) == 0)
  {
    if t[0] == '+' || t[0] == '-' {
      sign := t[..1];
      d := t[1..];
      assert sign == [t[0]];
    } else {
      sign := "";
      d := t;
    }
  }
}

=== FILE: envelope.dfy ===
/** The answer of the remote API and how `TraitementRecup` turns it into
    the list the data-access operations hand back. */
module Envelope {
  import opened Base
  import opened Http

  /** The only code the API uses for a request it carried out. */
  const SuccessCode: string := "200"

  /** The `result` member of an answer, as far as `TraitementRecup` cares:
      an array of rows, a JSON null (or no member at all), or anything else. */
  datatype Payload<R> =
    | Rows(rows: seq<R>)
    | JsonNull
    | NotAList

  /** An answer object with its `code` member read as a string (absent is
      `None`), or a transport failure: an exception out of the API client. */
  datatype Response<R> =
    | Envelope(code: Option<string>, result: Payload<R>)
    | Fault

  /** How a call into the data-access class ends: with a value, with the
      process stopped by `Environment.Exit`, or with an exception that
      escapes to the caller. */
  datatype Outcome<T> =
    | Returned(value: T)
    | Terminated
    | Raised

  /** Deserialising an array into a list: every row must decode, and the
      list holds the decoded rows in order. */
  function DecodeAll<R, T>(decode: R -> Option<T>, rows: seq<R>): (r: Option<seq<T>>)
    ensures r.Some? <==> forall i :: 0 <= i < |rows| ==> decode(rows[i]).Some?
    ensures r.Some? ==> |r.value| == |rows|
    ensures r.Some? ==> forall i :: 0 <= i < |rows| ==> decode(rows[i]) == Some(r.value[i])
    decreases |rows|
  {
    if |rows| == 0 then Some([])
    else
      match decode(rows[0])
      case None => None
      case Some(x) =>
        match DecodeAll(decode, rows[1..])
        case None =>
          assert forall i :: 1 <= i < |rows| ==> rows[i] == rows[1..][i - 1];
          None
        case Some(xs) =>
          assert forall i :: 1 <= i < |rows| ==> rows[i] == rows[1..][i - 1];
          Some([x] + xs)
  }

  /** `TraitementRecup`: a failing transport or a missing code stops the
      process; a code other than success, or any verb but GET, yields an
      empty list; a successful GET yields the decoded rows, `None` (a null
      list) for a null result, and stops the process when the result is no
      array or a row does not decode. */
  function Recup<R, T>(verb: Verb, response: Response<R>, decode: R -> Option<T>): (r: Outcome<Option<seq<T>>>)
    ensures !r.Raised?
    ensures r == Returned(None) <==> verb == GET && response == Envelope(Some(SuccessCode), JsonNull)
    ensures verb != GET ==> r != Returned(None)
    ensures r.Returned? && r.value.Some? && r.value.value != [] ==>
      verb == GET && response.Envelope? && response.code == Some(SuccessCode) && response.result.Rows?
      && |r.value.value| == |response.result.rows|
      && forall i :: 0 <= i < |response.result.rows| ==> decode(response.result.rows[i]) == Some(r.value.value[i])
    ensures response.Envelope? && response.code.Some? && response.code.value != SuccessCode ==> r == Returned(Some([]))
    ensures verb == GET && response.Envelope? && response.code == Some(SuccessCode) && response.result.Rows?
      && (forall i :: 0 <= i < |response.result.rows| ==> decode(response.result.rows[i]).Some?)
      ==> (r.Returned? && r.value.Some? && |r.value.value| == |response.result.rows|
           && forall i :: 0 <= i < |response.result.rows| ==> decode(response.result.rows[i]) == Some(r.value.value[i]))
  {
    match response
    case Fault => Terminated
    case Envelope(code, result) =>
      if code.None? then Terminated
      else if code.value != SuccessCode then Returned(Some([]))
      else if verb != GET then Returned(Some([]))
      else
        match result
        case JsonNull => Returned(None)
        case NotAList => Terminated
        case Rows(rows) =>
          match DecodeAll(decode, rows)
          case None => Terminated
          case Some(xs) => Returned(Some(xs))
  }

  /** The process is stopped exactly when the transport fails, the code is
      missing, or a successful GET brings back something that is not a list
      of decodable rows. */
  lemma RecupTerminates<R, T>(verb: Verb, response: Response<R>, decode: R -> Option<T>)
    ensures Recup(verb, response, decode) == Terminated <==>
      response.Fault? || response.code.None?
      || (verb == GET && response.code == Some(SuccessCode)
          && (response.result.NotAList?
              || (response.result.Rows? && exists i :: 0 <= i < |response.result.rows| && decode(response.result.rows[i]).None?)))
  {
  }

  /** A rejected request, whatever its verb, reads as an empty list: the
      caller cannot tell it from a successful write or an empty table. */
  lemma RejectionLooksEmpty<R, T>(verb: Verb, c: string, result: Payload<R>, decode: R -> Option<T>)
    requires c != SuccessCode
    ensures Recup(verb, Envelope(Some(c), result), decode) == Returned(Some([]))
    ensures Recup(verb, Envelope(Some(c), result), decode) == Recup(verb, Envelope(Some(SuccessCode), Rows([])), decode)
  {
    assert DecodeAll(decode, []) == Some([]);
  }

  /** A successful GET returns every row decoded, in the order of the array. */
  lemma RecupDecodesRows<R, T>(rows: seq<R>, decode: R -> Option<T>)
    requires forall i :: 0 <= i < |rows| ==> decode(rows[i]).Some?
    ensures Recup(GET, Envelope(Some(SuccessCode), Rows(rows)), decode).Returned?
    ensures var xs := Recup(GET, Envelope(Some(SuccessCode), Rows(rows)), decode).value;
      xs.Some? && |xs.value| == |rows| && forall i :: 0 <= i < |rows| ==> xs.value[i] == decode(rows[i]).value
  {
  }
}

=== FILE: http.dfy ===
/** The four HTTP verbs the data-access class names as string constants, and
    a request as the transport receives it: a verb and a path that may embed a
    JSON literal. The class passes the verbs as the distinct strings "GET",
    "POST", "PUT" and "DELETE" and only ever compares them with each other, so
    they are modelled as the values of a datatype. */
module Http {

  datatype Verb = GET | POST | PUT | DELETE

  datatype Request = Request(verb: Verb, path: string)
}

=== FILE: json_literal.dfy ===
/** The JSON object literals the write operations build by plain string
    concatenation: `{ "k1" : "v1", "k2" : "v2"}`. Every value is wrapped in
    double quotes and inserted verbatim, with no escaping.

    The parser in this module is the model's own reader of the concatenated
    text, the inverse of the builder. The two are inverse exactly on fields
    free of double quotes; a quote inside an argument can make two different
    argument lists produce the same text. The reader takes every other
    character literally: a JSON reader would also treat `\` as an escape and
    refuse raw control characters, which this reader does not model. */
module JsonLiteral {
  import opened Base

  /** A (name, value) pair of the literal. */
  type Field = (string, string)

  const Quote: char := '"'

  predicate QuoteFree(f: Field) {
    Quote !in f.0 && Quote !in f.1
  }

  predicate AllQuoteFree(fs: seq<Field>) {
    forall i :: 0 <= i < |fs| ==> QuoteFree(fs[i])
  }

  /** Text between double quotes, inserted verbatim. */
  function Quoted(x: string): string {
    [Quote] + x + [Quote]
  }

  const Separator: string := " : "

  /** One member: `"name" : "value"`. */
  function Member(f: Field): string {
    Quoted(f.0) + Separator + Quoted(f.1)
  }

  /** Members separated by `, `. */
  function Members(fs: seq<Field>): string {
    if |fs| == 0 then ""
    else if |fs| == 1 then Member(fs[0])
    else Member(fs[0]) + ", " + Members(fs[1..])
  }

  /** The whole literal: an opening brace and a space, the members, and a
      closing brace with no space before it. */
  function Literal(fs: seq<Field>): string {
    "{ " + Members(fs) + "}"
  }

  /** Index of the first occurrence of `c` in `s`. */
  function Find(s: string, c: char): (r: Option<nat>)
    ensures r.Some? ==> r.value < |s| && s[r.value] == c && c !in s[..r.value]
    ensures r.None? ==> c !in s
  {
    if |s| == 0 then None
    else if s[0] == c then Some(0)
    else
      match Find(s[1..], c)
      case None => None
      case Some(i) =>
        assert s[..i + 1] == [s[0]] + s[1..][..i];
        Some(i + 1)
  }

  /** The first `c` after a `c`-free prefix is found right after the prefix. */
  lemma FindAfter(a: string, c: char, b: string)
    requires c !in a
    ensures Find(a + [c] + b, c) == Some(|a|)
  {
    assert (a + [c] + b)[|a|] == c;
  }

  /** A quoted string at the front of `s`: the text up to the next quote, and
      what follows the closing quote. */
  function ReadQuoted(s: string): (r: Option<(string, string)>)
    ensures r.Some? ==> |r.value.1| < |s|
  {
    if |s| == 0 || s[0] != Quote then None
    else
      match Find(s[1..], Quote)
      case None => None
      case Some(i) => Some((s[1..][..i], s[1..][i + 1..]))
  }

  lemma ReadQuotedRoundTrip(x: string, rest: string)
    requires Quote !in x
    ensures ReadQuoted(Quoted(x) + rest) == Some((x, rest))
  {
    var s := Quoted(x) + rest;
    var t := x + [Quote] + rest;
    assert s[1..] == t;
    FindAfter(x, Quote, rest);
    assert t[..|x|] == x;
    assert t[|x| + 1..] == rest;
  }

  lemma ReadQuotedSound(s: string)
    requires ReadQuoted(s).Some?
    ensures Quote !in ReadQuoted(s).value.0
    ensures s == Quoted(ReadQuoted(s).value.0) + ReadQuoted(s).value.1
  {
    var t := s[1..];
    var i := Find(t, Quote).value;
    assert t == t[..i] + [Quote] + t[i + 1..];
    assert s == [s[0]] + t;
  }

  /** Reads one member off the front of `s` and returns the rest. */
  function ParseMember(s: string): (r: Option<(Field, string)>)
    ensures r.Some? ==> |r.value.1| < |s|
  {
    match ReadQuoted(s)
    case None => None
    case Some((name, u)) =>
      if |u| < 3 || u[..3] != Separator then None
      else
        match ReadQuoted(u[3..])
        case None => None
        case Some((value, rest)) => Some(((name, value), rest))
  }

  /** Reads a `, `-separated list of members making up all of `s`. */
  function ParseMembers(s: string): (r: Option<seq<Field>>)
    ensures 0 < |s| && r.Some? ==> 0 < |r.value|
    decreases |s|
  {
    if |s| == 0 then Some([])
    else
      match ParseMember(s)
      case None => None
      case Some((f, rest)) =>
        if |rest| == 0 then Some([f])
        else if 2 < |rest| && rest[..2] == ", " then
          match ParseMembers(rest[2..])
          case None => None
          case Some(fs) => Some([f] + fs)
        else None
  }

  function ParseLiteral(s: string): Option<seq<Field>> {
    if 3 <= |s| && s[..2] == "{ " && s[|s| - 1] == '}' then ParseMembers(s[2..|s| - 1])
    else None
  }

  lemma ParseMemberRoundTrip(f: Field, rest: string)
    requires QuoteFree(f)
    ensures ParseMember(Member(f) + rest) == Some((f, rest))
  {
    var v := Quoted(f.1) + rest;
    var u := Separator + v;
    assert Member(f) + rest == Quoted(f.0) + u;
    ReadQuotedRoundTrip(f.0, u);
    assert u[..3] == Separator && u[3..] == v;
    ReadQuotedRoundTrip(f.1, rest);
  }

  lemma MembersCons(f: Field, fs: seq<Field>)
    requires 0 < |fs|
    ensures Members([f] + fs) == Member(f) + ", " + Members(fs)
  {
    assert ([f] + fs)[1..] == fs;
  }

  /** ParseMembers reads a first member, a `, ` and the rest. */
  lemma ParseMembersCons(s: string, f: Field, rest: string, fs: seq<Field>)
    requires 0 < |s| && ParseMember(s) == Some((f, rest))
    requires 2 < |rest| && rest[..2] == ", " && ParseMembers(rest[2..]) == Some(fs)
    ensures ParseMembers(s) == Some([f] + fs)
  {
  }

  lemma {:induction false} ParseMembersRoundTrip(fs: seq<Field>)
    requires AllQuoteFree(fs)
    ensures ParseMembers(Members(fs)) == Some(fs)
    decreases |fs|
  {
    if |fs| == 1 {
      ParseMemberRoundTrip(fs[0], "");
      assert Member(fs[0]) + "" == Member(fs[0]) == Members(fs);
      assert 0 < |Members(fs)|;
      assert fs == [fs[0]];
    } else if 1 < |fs| {
      var tail := Members(fs[1..]);
      var rest := ", " + tail;
      assert fs == [fs[0]] + fs[1..];
      MembersCons(fs[0], fs[1..]);
      assert Members(fs) == Member(fs[0]) + rest;
      ParseMemberRoundTrip(fs[0], rest);
      ParseMembersRoundTrip(fs[1..]);
      assert 0 < |tail| && rest[2..] == tail;
      ParseMembersCons(Members(fs), fs[0], rest, fs[1..]);
    }
  }

  /** Members of a concatenation: the two parts joined by `, `. */
  lemma {:induction false} MembersAppend(fs: seq<Field>, gs: seq<Field>)
    requires 0 < |fs| && 0 < |gs|
    ensures Members(fs + gs) == Members(fs) + ", " + Members(gs)
    decreases |fs|
  {
    if |fs| == 1 {
      assert fs + gs == [fs[0]] + gs;
      MembersCons(fs[0], gs);
    } else {
      assert fs + gs == [fs[0]] + (fs[1..] + gs);
      MembersCons(fs[0], fs[1..] + gs);
      MembersAppend(fs[1..], gs);
      assert fs == [fs[0]] + fs[1..];
      MembersCons(fs[0], fs[1..]);
    }
  }

  // The literal as hand-written concatenation spells it: the opening piece
  // carries the first name, each later piece closes the previous value's
  // quote, separates, and carries the next name.

  function Open(name: string): string {
    "{ \"" + name + "\" : \""
  }

  function Next(name: string): string {
    "\", \"" + name + "\" : \""
  }

  const Close: string := "\"}"

  /** Everything but the closing piece, built left to right. */
  function SourceForm(fs: seq<Field>): string
    requires 0 < |fs|
  {
    if |fs| == 1 then Open(fs[0].0) + fs[0].1
    else SourceForm(fs[..|fs| - 1]) + Next(fs[|fs| - 1].0) + fs[|fs| - 1].1
  }

  lemma {:induction false} MembersSourceForm(fs: seq<Field>)
    requires 0 < |fs|
    ensures "{ " + Members(fs) == SourceForm(fs) + [Quote]
    decreases |fs|
  {
    if 1 < |fs| {
      var init := fs[..|fs| - 1];
      var last := fs[|fs| - 1];
      assert fs == init + [last];
      MembersAppend(init, [last]);
      MembersSourceForm(init);
      assert fs[..|fs| - 1] == init;
      AppendMemberText(SourceForm(init), Members(init), last.0, last.1);
    }
  }

  lemma AppendMemberText(prev: string, members: string, n: string, v: string)
    requires "{ " + members == prev + [Quote]
    ensures "{ " + (members + ", " + Member((n, v))) == prev + Next(n) + v + [Quote]
  {
    assert Member((n, v)) == "\"" + n + "\" : \"" + v + "\"";
    calc {
      "{ " + (members + ", " + Member((n, v)));
      ("{ " + members) + ", " + Member((n, v));
      prev + [Quote] + ", " + ("\"" + n + "\" : \"" + v + "\"");
      prev + ("\", \"" + n + "\" : \"") + v + "\"";
    }
  }

  /** The literal is exactly what the left-to-right concatenation writes. */
  lemma LiteralIsSourceForm(fs: seq<Field>)
    requires 0 < |fs|
    ensures Literal(fs) == SourceForm(fs) + Close
  {
    MembersSourceForm(fs);
  }

  lemma SourceForm3(a: Field, b: Field, c: Field)
    ensures SourceForm([a, b, c]) == Open(a.0) + a.1 + Next(b.0) + b.1 + Next(c.0) + c.1
  {
    assert [a, b][..1] == [a];
    assert SourceForm([a, b]) == Open(a.0) + a.1 + Next(b.0) + b.1;
    assert [a, b, c][..2] == [a, b];
  }

  lemma SourceForm4(a: Field, b: Field, c: Field, d: Field)
    ensures SourceForm([a, b, c, d]) == Open(a.0) + a.1 + Next(b.0) + b.1 + Next(c.0) + c.1 + Next(d.0) + d.1
  {
    assert [a, b, c, d][..3] == [a, b, c];
    SourceForm3(a, b, c);
  }

  lemma SourceForm6(a: Field, b: Field, c: Field, d: Field, e: Field, f: Field)
    ensures SourceForm([a, b, c, d, e, f])
      == Open(a.0) + a.1 + Next(b.0) + b.1 + Next(c.0) + c.1 + Next(d.0) + d.1 + Next(e.0) + e.1 + Next(f.0) + f.1
  {
    assert [a, b, c, d, e, f][..5] == [a, b, c, d, e];
    assert [a, b, c, d, e][..4] == [a, b, c, d];
    SourceForm4(a, b, c, d);
  }

  /** Quote-free fields are recovered exactly from the literal. */
  lemma LiteralRoundTrip(fs: seq<Field>)
    requires AllQuoteFree(fs)
    ensures ParseLiteral(Literal(fs)) == Some(fs)
  {
    var s := Literal(fs);
    assert s[2..|s| - 1] == Members(fs);
    ParseMembersRoundTrip(fs);
  }

  lemma MemberConcat(name: string, value: string, rest: string)
    ensures Quoted(name) + (Separator + (Quoted(value) + rest)) == Member((name, value)) + rest
  {
  }

  lemma ParseMemberSound(s: string)
    requires ParseMember(s).Some?
    ensures QuoteFree(ParseMember(s).value.0)
    ensures s == Member(ParseMember(s).value.0) + ParseMember(s).value.1
  {
    var name := ReadQuoted(s).value.0;
    var u := ReadQuoted(s).value.1;
    var v := u[3..];
    var value := ReadQuoted(v).value.0;
    var rest := ReadQuoted(v).value.1;
    assert ParseMember(s).value == ((name, value), rest);
    assert s == Quoted(name) + u by { ReadQuotedSound(s); }
    assert v == Quoted(value) + rest by { ReadQuotedSound(v); }
    assert u == Separator + v;
    MemberConcat(name, value, rest);
  }

  /** One step of ParseMembers on a non-empty input that parses. */
  lemma ParseMembersStep(s: string)
    requires 0 < |s| && ParseMembers(s).Some?
    ensures ParseMember(s).Some?
    ensures |ParseMember(s).value.1| == 0 ==> ParseMembers(s).value == [ParseMember(s).value.0]
    ensures 0 < |ParseMember(s).value.1| ==>
      && 2 < |ParseMember(s).value.1| && ParseMember(s).value.1[..2] == ", "
      && ParseMembers(ParseMember(s).value.1[2..]).Some?
      && ParseMembers(s).value == [ParseMember(s).value.0] + ParseMembers(ParseMember(s).value.1[2..]).value
  {
  }

  lemma {:induction false} ParseMembersSound(s: string)
    requires ParseMembers(s).Some?
    ensures AllQuoteFree(ParseMembers(s).value)
    ensures Members(ParseMembers(s).value) == s
    decreases |s|
  {
    if 0 < |s| {
      ParseMembersStep(s);
      var f := ParseMember(s).value.0;
      var rest := ParseMember(s).value.1;
      ParseMemberSound(s);
      if 0 < |rest| {
        var more := rest[2..];
        ParseMembersSound(more);
        SoundCons(s, f, rest, ParseMembers(more).value);
      }
    }
  }

  /** Reassembling a parsed first member, the `, ` and the parsed rest. */
  lemma SoundCons(s: string, f: Field, rest: string, fs: seq<Field>)
    requires s == Member(f) + rest
    requires 2 < |rest| && rest[..2] == ", " && Members(fs) == rest[2..] && 0 < |fs|
    requires QuoteFree(f) && AllQuoteFree(fs)
    ensures Members([f] + fs) == s
    ensures AllQuoteFree([f] + fs)
  {
    MembersCons(f, fs);
    CommaSplit(Member(f), rest);
    AllQuoteFreeCons(f, fs);
  }

  lemma CommaSplit(m: string, rest: string)
    requires 2 <= |rest| && rest[..2] == ", "
    ensures m + ", " + rest[2..] == m + rest
  {
    assert rest == ", " + rest[2..];
  }

  lemma AllQuoteFreeCons(f: Field, fs: seq<Field>)
    requires QuoteFree(f) && AllQuoteFree(fs)
    ensures AllQuoteFree([f] + fs)
  {
    assert forall i :: 1 <= i < |[f] + fs| ==> ([f] + fs)[i] == fs[i - 1];
  }

  /** Whatever parses was built by Literal from quote-free fields. */
  lemma LiteralSound(s: string)
    requires ParseLiteral(s).Some?
    ensures AllQuoteFree(ParseLiteral(s).value)
    ensures Literal(ParseLiteral(s).value) == s
  {
    var body := s[2..|s| - 1];
    assert ParseLiteral(s) == ParseMembers(body);
    ParseMembersSound(body);
    Reassemble(s);
  }

  lemma Reassemble(s: string)
    requires 3 <= |s| && s[..2] == "{ " && s[|s| - 1] == '}'
    ensures s == "{ " + s[2..|s| - 1] + "}"
  {
    assert s == s[..2] + s[2..|s| - 1] + s[|s| - 1..];
  }

  /** Distinct quote-free field lists give distinct literals. */
  lemma LiteralInjective(fs: seq<Field>, gs: seq<Field>)
    requires AllQuoteFree(fs) && AllQuoteFree(gs)
    requires Literal(fs) == Literal(gs)
    ensures fs == gs
  {
    LiteralRoundTrip(fs);
    LiteralRoundTrip(gs);
  }

  /** Without escaping, a value holding quotes can forge extra members: one
      field and two fields print the same literal. */
  lemma UnescapedValueForgesMembers()
    ensures Literal([("id", "a\", \"x\" : \"b")]) == Literal([("id", "a"), ("x", "b")])
  {
  }
}

=== FILE: requests.dfy ===
/** How each operation of the data-access class turns its arguments into a
    verb and a path.

    Reads use a fixed resource name, optionally followed by `/` and an id.
    Writes embed a hand-built JSON literal in the path: create sends
    `<resource>/<literal>`, update `<resource>/<id>/<literal>`, and delete
    `<resource>/<literal>` with the id only inside the literal.

    ParseRead and ParseWrite are the model's own readers of these requests,
    the inverses of the builders: they recover the operation from the
    request. Both round trips are proved, on arguments free of double quotes
    (and, for an update, an id free of `/`). They read the text as it is
    concatenated; a JSON reader would also interpret `\` and refuse raw
    control characters, which these readers do not model. */
module Requests {
  import opened Base
  import opened Decimal
  import opened JsonLiteral
  import opened Http

  // ---------------------------------------------------------------- reads

  datatype ReadOp =
    | AllGenres
    | AllRayons
    | AllPublics
    | AllLivres
    | AllDvd
    | AllRevues
    | DocumentsById(idDocument: string)
    | ExemplairesOf(idDocument: string)

  /** The three reads whose results are upcast to the common category type. */
  predicate IsCategoryRead(op: ReadOp) {
    op == AllGenres || op == AllRayons || op == AllPublics
  }

  function ReadRequest(op: ReadOp): Request {
    match op
    case AllGenres => Request(GET, "genre")
    case AllRayons => Request(GET, "rayon")
    case AllPublics => Request(GET, "public")
    case AllLivres => Request(GET, "livre")
    case AllDvd => Request(GET, "dvd")
    case AllRevues => Request(GET, "revue")
    case DocumentsById(id) => Request(GET, "document/" + id)
    case ExemplairesOf(id) => Request(GET, "exemplaire/" + id)
  }

  /** The path before and after its first `/`. */
  function SplitAtSlash(s: string): (r: Option<(string, string)>)
    ensures r.Some? ==> '/' !in r.value.0 && s == r.value.0 + "/" + r.value.1
    ensures r.None? ==> '/' !in s
  {
    match Find(s, '/')
    case None => None
    case Some(i) =>
      assert s == s[..i] + "/" + s[i + 1..];
      Some((s[..i], s[i + 1..]))
  }

  lemma SplitAfter(a: string, b: string)
    requires '/' !in a
    ensures SplitAtSlash(a + "/" + b) == Some((a, b))
  {
    FindAfter(a, '/', b);
    var s := a + "/" + b;
    assert s[..|a|] == a && s[|a| + 1..] == b;
  }

  /** The reads whose path is a bare resource name. */
  function FixedRead(path: string): Option<ReadOp> {
    if path == "genre" then Some(AllGenres)
    else if path == "rayon" then Some(AllRayons)
    else if path == "public" then Some(AllPublics)
    else if path == "livre" then Some(AllLivres)
    else if path == "dvd" then Some(AllDvd)
    else if path == "revue" then Some(AllRevues)
    else None
  }

  /** Which read a GET request is. */
  function ParseRead(req: Request): Option<ReadOp> {
    if req.verb != GET then None
    else
      match SplitAtSlash(req.path)
      case None => FixedRead(req.path)
      case Some((resource, id)) =>
        if resource == "document" then Some(DocumentsById(id))
        else if resource == "exemplaire" then Some(ExemplairesOf(id))
        else None
  }

  lemma FixedReadRoundTrip(op: ReadOp)
    requires !op.DocumentsById? && !op.ExemplairesOf?
    ensures '/' !in ReadRequest(op).path
    ensures FixedRead(ReadRequest(op).path) == Some(op)
  {
  }

  /** Every read is a GET and its request identifies it, whatever the id. */
  lemma ReadRoundTrip(op: ReadOp)
    ensures ReadRequest(op).verb == GET
    ensures ParseRead(ReadRequest(op)) == Some(op)
  {
    match op
    case DocumentsById(id) =>
      assert ReadRequest(op).path == "document" + "/" + id;
      SplitAfter("document", id);
    case ExemplairesOf(id) =>
      assert ReadRequest(op).path == "exemplaire" + "/" + id;
      SplitAfter("exemplaire", id);
    case _ =>
      FixedReadRoundTrip(op);
      assert SplitAtSlash(ReadRequest(op).path) == None;
  }

  /** Distinct reads send distinct requests. */
  lemma ReadRequestInjective(a: ReadOp, b: ReadOp)
    requires ReadRequest(a) == ReadRequest(b)
    ensures a == b
  {
    ReadRoundTrip(a);
    ReadRoundTrip(b);
  }

  // --------------------------------------------------------------- writes

  datatype Kind = DocumentKind | LivreKind | DvdKind | RevueKind

  function Resource(k: Kind): string {
    match k
    case DocumentKind => "document"
    case LivreKind => "livre"
    case DvdKind => "dvd"
    case RevueKind => "revue"
  }

  function KindNamed(name: string): Option<Kind> {
    if name == "document" then Some(DocumentKind)
    else if name == "livre" then Some(LivreKind)
    else if name == "dvd" then Some(DvdKind)
    else if name == "revue" then Some(RevueKind)
    else None
  }

  /** The arguments of one create or update call. The integers are C# `int`s. */
  datatype Record =
    | Document(id: string, titre: string, image: string, idRayon: string, idPublic: string, idGenre: string)
    | Livre(id: string, isbn: string, auteur: string, collection: string)
    | Dvd(id: string, synopsis: string, realisateur: string, duree: int32)
    | Revue(id: string, periodicite: string, delaiMiseADispo: int32)

  function KindOf(r: Record): Kind {
    match r
    case Document(_, _, _, _, _, _) => DocumentKind
    case Livre(_, _, _, _) => LivreKind
    case Dvd(_, _, _, _) => DvdKind
    case Revue(_, _, _) => RevueKind
  }

  /** The members of a create literal, in the order the source writes them. */
  function CreateFields(r: Record): seq<Field> {
    match r
    case Document(id, titre, image, idRayon, idPublic, idGenre) =>
      [("id", id), ("titre", titre), ("image", image),
       ("idRayon", idRayon), ("idPublic", idPublic), ("idGenre", idGenre)]
    case Livre(id, isbn, auteur, collection) =>
      [("id", id), ("isbn", isbn), ("auteur", auteur), ("collection", collection)]
    case Dvd(id, synopsis, realisateur, duree) =>
      [("id", id), ("synopsis", synopsis), ("realisateur", realisateur),
       ("duree", IntToDecimal(duree as int))]
    case Revue(id, periodicite, delai) =>
      [("id", id), ("periodicite", periodicite), ("delaiMiseADispo", IntToDecimal(delai as int))]
  }

  /** The members of an update literal, in the order the update methods
      write them: the document update lists the genre before the shelf. */
  function UpdateFields(r: Record): seq<Field> {
    match r
    case Document(id, titre, image, idRayon, idPublic, idGenre) =>
      [("id", id), ("titre", titre), ("image", image),
       ("idGenre", idGenre), ("idPublic", idPublic), ("idRayon", idRayon)]
    case Livre(id, isbn, auteur, collection) =>
      [("id", id), ("isbn", isbn), ("auteur", auteur), ("collection", collection)]
    case Dvd(id, synopsis, realisateur, duree) =>
      [("id", id), ("synopsis", synopsis), ("realisateur", realisateur),
       ("duree", IntToDecimal(duree as int))]
    case Revue(id, periodicite, delai) =>
      [("id", id), ("periodicite", periodicite), ("delaiMiseADispo", IntToDecimal(delai as int))]
  }

  datatype WriteOp =
    | Create(record: Record)
    | Update(record: Record)
    | Delete(kind: Kind, id: string)

  function WriteRequest(op: WriteOp): Request {
    match op
    case Create(r) => Request(POST, Resource(KindOf(r)) + "/" + Literal(CreateFields(r)))
    case Update(r) => Request(PUT, Resource(KindOf(r)) + "/" + r.id + "/" + Literal(UpdateFields(r)))
    case Delete(k, id) => Request(DELETE, Resource(k) + "/" + Literal([("id", id)]))
  }

  /** `CreerExemplaire` posts the library's serialisation of the copy, which
      is not modelled, under the `exemplaire` resource. */
  function ExemplaireCreateRequest(json: string): Request {
    Request(POST, "exemplaire/" + json)
  }

  /** The copy is posted under its own resource, whatever its text holds;
      that resource is no write kind, so the request is no document write. */
  lemma ExemplaireCreateTarget(json: string)
    ensures ExemplaireCreateRequest(json).verb == POST
    ensures SplitAtSlash(ExemplaireCreateRequest(json).path) == Some(("exemplaire", json))
    ensures KindNamed("exemplaire") == None
    ensures ParseWrite(ExemplaireCreateRequest(json)) == None
  {
    assert ExemplaireCreateRequest(json).path == "exemplaire" + "/" + json;
    SplitAfter("exemplaire", json);
  }

  /** Reading an integer member back, within the range of a C# `int`. */
  function ParseInt32(s: string): Option<int32> {
    match ParseInt(s)
    case None => None
    case Some(i) => if -0x8000_0000 <= i < 0x8000_0000 then Some(i as int32) else None
  }

  /** The record a create literal of kind `k` describes, if its members have
      the expected names in the expected order. */
  function RecordFromCreate(k: Kind, fs: seq<Field>): Option<Record> {
    match k
    case DocumentKind =>
      if |fs| == 6 && fs[0].0 == "id" && fs[1].0 == "titre" && fs[2].0 == "image"
         && fs[3].0 == "idRayon" && fs[4].0 == "idPublic" && fs[5].0 == "idGenre"
      then Some(Document(fs[0].1, fs[1].1, fs[2].1, fs[3].1, fs[4].1, fs[5].1))
      else None
    case LivreKind =>
      if |fs| == 4 && fs[0].0 == "id" && fs[1].0 == "isbn" && fs[2].0 == "auteur" && fs[3].0 == "collection"
      then Some(Livre(fs[0].1, fs[1].1, fs[2].1, fs[3].1))
      else None
    case DvdKind =>
      if |fs| == 4 && fs[0].0 == "id" && fs[1].0 == "synopsis" && fs[2].0 == "realisateur" && fs[3].0 == "duree"
      then
        match ParseInt32(fs[3].1)
        case None => None
        case Some(d) => Some(Dvd(fs[0].1, fs[1].1, fs[2].1, d))
      else None
    case RevueKind =>
      if |fs| == 3 && fs[0].0 == "id" && fs[1].0 == "periodicite" && fs[2].0 == "delaiMiseADispo"
      then
        match ParseInt32(fs[2].1)
        case None => None
        case Some(d) => Some(Revue(fs[0].1, fs[1].1, d))
      else None
  }

  /** As RecordFromCreate, with the document update's member order. */
  function RecordFromUpdate(k: Kind, fs: seq<Field>): Option<Record> {
    if k == DocumentKind then
      if |fs| == 6 && fs[0].0 == "id" && fs[1].0 == "titre" && fs[2].0 == "image"
         && fs[3].0 == "idGenre" && fs[4].0 == "idPublic" && fs[5].0 == "idRayon"
      then Some(Document(fs[0].1, fs[1].1, fs[2].1, fs[5].1, fs[4].1, fs[3].1))
      else None
    else RecordFromCreate(k, fs)
  }

  function ParseCreate(k: Kind, rest: string): Option<WriteOp> {
    match ParseLiteral(rest)
    case None => None
    case Some(fs) =>
      match RecordFromCreate(k, fs)
      case None => None
      case Some(r) => Some(Create(r))
  }

  /** The id segment must agree with the id member of the literal. */
  function ParseUpdate(k: Kind, rest: string): Option<WriteOp> {
    match SplitAtSlash(rest)
    case None => None
    case Some((id, lit)) =>
      match ParseLiteral(lit)
      case None => None
      case Some(fs) =>
        match RecordFromUpdate(k, fs)
        case None => None
        case Some(r) => if r.id == id then Some(Update(r)) else None
  }

  function ParseDelete(k: Kind, rest: string): Option<WriteOp> {
    match ParseLiteral(rest)
    case None => None
    case Some(fs) => if |fs| == 1 && fs[0].0 == "id" then Some(Delete(k, fs[0].1)) else None
  }

  /** Which write a request is, as the model's reader of the path sees it. */
  function ParseWrite(req: Request): Option<WriteOp> {
    match SplitAtSlash(req.path)
    case None => None
    case Some((resource, rest)) =>
      match KindNamed(resource)
      case None => None
      case Some(k) =>
        match req.verb
        case GET => None
        case POST => ParseCreate(k, rest)
        case PUT => ParseUpdate(k, rest)
        case DELETE => ParseDelete(k, rest)
  }

  /** The text arguments of a record hold no double quote. */
  predicate TextQuoteFree(r: Record) {
    match r
    case Document(id, titre, image, idRayon, idPublic, idGenre) =>
      Quote !in id && Quote !in titre && Quote !in image
      && Quote !in idRayon && Quote !in idPublic && Quote !in idGenre
    case Livre(id, isbn, auteur, collection) =>
      Quote !in id && Quote !in isbn && Quote !in auteur && Quote !in collection
    case Dvd(id, synopsis, realisateur, _) =>
      Quote !in id && Quote !in synopsis && Quote !in realisateur
    case Revue(id, periodicite, _) =>
      Quote !in id && Quote !in periodicite
  }

  /** The arguments the model's reader recovers from the request: no quote
      anywhere, and no `/` in an id that becomes a path segment of its own. */
  predicate WellFormed(op: WriteOp) {
    match op
    case Create(r) => TextQuoteFree(r)
    case Update(r) => TextQuoteFree(r) && '/' !in r.id
    case Delete(_, id) => Quote !in id
  }

  lemma IntTextQuoteFree(i: int)
    ensures Quote !in IntToDecimal(i)
  {
    var s := IntToDecimal(i);
    if i < 0 {
      assert s == [s[0]] + s[1..];
    }
  }

  lemma FieldsQuoteFree(r: Record)
    requires TextQuoteFree(r)
    ensures AllQuoteFree(CreateFields(r))
    ensures AllQuoteFree(UpdateFields(r))
  {
    match r
    case Document(id, titre, image, idRayon, idPublic, idGenre) =>
      DocumentFieldsQuoteFree(id, titre, image, idRayon, idPublic, idGenre);
    case Livre(id, isbn, auteur, collection) =>
      LivreFieldsQuoteFree(id, isbn, auteur, collection);
    case Dvd(id, synopsis, realisateur, d) =>
      IntTextQuoteFree(d as int);
      DvdFieldsQuoteFree(id, synopsis, realisateur, IntToDecimal(d as int));
    case Revue(id, periodicite, d) =>
      IntTextQuoteFree(d as int);
      RevueFieldsQuoteFree(id, periodicite, IntToDecimal(d as int));
  }

  lemma DocumentFieldsQuoteFree(id: string, titre: string, image: string, idRayon: string, idPublic: string, idGenre: string)
    requires Quote !in id && Quote !in titre && Quote !in image
    requires Quote !in idRayon && Quote !in idPublic && Quote !in idGenre
    ensures AllQuoteFree([("id", id), ("titre", titre), ("image", image), ("idRayon", idRayon), ("idPublic", idPublic), ("idGenre", idGenre)])
    ensures AllQuoteFree([("id", id), ("titre", titre), ("image", image), ("idGenre", idGenre), ("idPublic", idPublic), ("idRayon", idRayon)])
  {
  }

  lemma LivreFieldsQuoteFree(id: string, isbn: string, auteur: string, collection: string)
    requires Quote !in id && Quote !in isbn && Quote !in auteur && Quote !in collection
    ensures AllQuoteFree([("id", id), ("isbn", isbn), ("auteur", auteur), ("collection", collection)])
  {
  }

  lemma DvdFieldsQuoteFree(id: string, synopsis: string, realisateur: string, duree: string)
    requires Quote !in id && Quote !in synopsis && Quote !in realisateur && Quote !in duree
    ensures AllQuoteFree([("id", id), ("synopsis", synopsis), ("realisateur", realisateur), ("duree", duree)])
  {
  }

  lemma RevueFieldsQuoteFree(id: string, periodicite: string, delai: string)
    requires Quote !in id && Quote !in periodicite && Quote !in delai
    ensures AllQuoteFree([("id", id), ("periodicite", periodicite), ("delaiMiseADispo", delai)])
  {
  }

  lemma Int32RoundTrip(d: int32)
    ensures ParseInt32(IntToDecimal(d as int)) == Some(d)
  {
    IntRoundTrip(d as int);
  }

  lemma RecordFromFieldsRoundTrip(r: Record)
    ensures RecordFromCreate(KindOf(r), CreateFields(r)) == Some(r)
    ensures RecordFromUpdate(KindOf(r), UpdateFields(r)) == Some(r)
  {
    match r
    case Dvd(_, _, _, d) => Int32RoundTrip(d);
    case Revue(_, _, d) => Int32RoundTrip(d);
    case _ =>
  }

  lemma ResourceRoundTrip(k: Kind)
    ensures '/' !in Resource(k)
    ensures KindNamed(Resource(k)) == Some(k)
  {
  }

  /** The first segment of a write path names the kind it writes. */
  lemma WritePathHead(k: Kind, rest: string)
    ensures SplitAtSlash(Resource(k) + "/" + rest) == Some((Resource(k), rest))
    ensures KindNamed(Resource(k)) == Some(k)
  {
    ResourceRoundTrip(k);
    SplitAfter(Resource(k), rest);
  }

  lemma CreateRoundTrip(r: Record)
    requires TextQuoteFree(r)
    ensures ParseWrite(WriteRequest(Create(r))) == Some(Create(r))
  {
    var lit := Literal(CreateFields(r));
    WritePathHead(KindOf(r), lit);
    assert ParseCreate(KindOf(r), lit) == Some(Create(r)) by {
      FieldsQuoteFree(r);
      LiteralRoundTrip(CreateFields(r));
      RecordFromFieldsRoundTrip(r);
    }
  }

  lemma ParseUpdateRoundTrip(r: Record)
    requires TextQuoteFree(r) && '/' !in r.id
    ensures ParseUpdate(KindOf(r), r.id + "/" + Literal(UpdateFields(r))) == Some(Update(r))
  {
    var lit := Literal(UpdateFields(r));
    SplitAfter(r.id, lit);
    FieldsQuoteFree(r);
    LiteralRoundTrip(UpdateFields(r));
    RecordFromFieldsRoundTrip(r);
  }

  lemma UpdateRoundTrip(r: Record)
    requires TextQuoteFree(r) && '/' !in r.id
    ensures ParseWrite(WriteRequest(Update(r))) == Some(Update(r))
  {
    var rest := r.id + "/" + Literal(UpdateFields(r));
    assert WriteRequest(Update(r)).path == Resource(KindOf(r)) + "/" + rest;
    WritePathHead(KindOf(r), rest);
    ParseUpdateRoundTrip(r);
  }

  lemma DeleteRoundTrip(k: Kind, id: string)
    requires Quote !in id
    ensures ParseWrite(WriteRequest(Delete(k, id))) == Some(Delete(k, id))
  {
    var fs := [("id", id)];
    WritePathHead(k, Literal(fs));
    assert ParseDelete(k, Literal(fs)) == Some(Delete(k, id)) by {
      assert AllQuoteFree(fs);
      LiteralRoundTrip(fs);
    }
  }

  /** Every well-formed write can be read back from its request alone. */
  lemma WriteRoundTrip(op: WriteOp)
    requires WellFormed(op)
    ensures ParseWrite(WriteRequest(op)) == Some(op)
  {
    match op
    case Create(r) => CreateRoundTrip(r);
    case Update(r) => UpdateRoundTrip(r);
    case Delete(k, id) => DeleteRoundTrip(k, id);
  }

  /** Distinct well-formed writes send distinct requests. */
  lemma WriteRequestInjective(a: WriteOp, b: WriteOp)
    requires WellFormed(a) && WellFormed(b)
    requires WriteRequest(a) == WriteRequest(b)
    ensures a == b
  {
    WriteRoundTrip(a);
    WriteRoundTrip(b);
  }

  // ------------------------------------- the literals as the source spells them

  /** The opening and separating pieces of the literals, as the source
      writes them. */
  lemma OpenIdText()
    ensures Open("id") == "{ \"id\" : \""
  {
  }

  lemma NextTitreText()
    ensures Next("titre") == "\", \"titre\" : \""
  {
  }

  lemma NextImageText()
    ensures Next("image") == "\", \"image\" : \""
  {
  }

  lemma NextIdRayonText()
    ensures Next("idRayon") == "\", \"idRayon\" : \""
  {
  }

  lemma NextIdPublicText()
    ensures Next("idPublic") == "\", \"idPublic\" : \""
  {
  }

  lemma NextIdGenreText()
    ensures Next("idGenre") == "\", \"idGenre\" : \""
  {
  }

  lemma NextIsbnText()
    ensures Next("isbn") == "\", \"isbn\" : \""
  {
  }

  lemma NextAuteurText()
    ensures Next("auteur") == "\", \"auteur\" : \""
  {
  }

  lemma NextCollectionText()
    ensures Next("collection") == "\", \"collection\" : \""
  {
  }

  lemma NextSynopsisText()
    ensures Next("synopsis") == "\", \"synopsis\" : \""
  {
  }

  lemma NextRealisateurText()
    ensures Next("realisateur") == "\", \"realisateur\" : \""
  {
  }

  lemma NextDureeText()
    ensures Next("duree") == "\", \"duree\" : \""
  {
  }

  lemma NextPeriodiciteText()
    ensures Next("periodicite") == "\", \"periodicite\" : \""
  {
  }

  lemma NextDelaiMiseADispoText()
    ensures Next("delaiMiseADispo") == "\", \"delaiMiseADispo\" : \""
  {
  }

  /** The one-member literal every delete sends. */
  lemma IdLiteralText(id: string)
    ensures Literal([("id", id)])
      == "{ \"id\" : \"" + id + "\"}"
  {
    LiteralIsSourceForm([("id", id)]);
    OpenIdText();
  }

  /** The literal `CreerDocument` builds. */
  lemma DocumentCreateLiteralText(id: string, titre: string, image: string, idRayon: string, idPublic: string, idGenre: string)
    ensures Literal([("id", id), ("titre", titre), ("image", image), ("idRayon", idRayon), ("idPublic", idPublic), ("idGenre", idGenre)])
      == "{ \"id\" : \"" + id + "\", \"titre\" : \"" + titre + "\", \"image\" : \"" + image + "\", \"idRayon\" : \"" + idRayon + "\", \"idPublic\" : \"" + idPublic + "\", \"idGenre\" : \"" + idGenre + "\"}"
  {
    LiteralIsSourceForm([("id", id), ("titre", titre), ("image", image), ("idRayon", idRayon), ("idPublic", idPublic), ("idGenre", idGenre)]);
    SourceForm6(("id", id), ("titre", titre), ("image", image), ("idRayon", idRayon), ("idPublic", idPublic), ("idGenre", idGenre));
    OpenIdText();
    NextTitreText();
    NextImageText();
    NextIdRayonText();
    NextIdPublicText();
    NextIdGenreText();
  }

  /** The literal `ModifierDocument` builds. */
  lemma DocumentUpdateLiteralText(id: string, titre: string, image: string, idGenre: string, idPublic: string, idRayon: string)
    ensures Literal([("id", id), ("titre", titre), ("image", image), ("idGenre", idGenre), ("idPublic", idPublic), ("idRayon", idRayon)])
      == "{ \"id\" : \"" + id + "\", \"titre\" : \"" + titre + "\", \"image\" : \"" + image + "\", \"idGenre\" : \"" + idGenre + "\", \"idPublic\" : \"" + idPublic + "\", \"idRayon\" : \"" + idRayon + "\"}"
  {
    LiteralIsSourceForm([("id", id), ("titre", titre), ("image", image), ("idGenre", idGenre), ("idPublic", idPublic), ("idRayon", idRayon)]);
    SourceForm6(("id", id), ("titre", titre), ("image", image), ("idGenre", idGenre), ("idPublic", idPublic), ("idRayon", idRayon));
    OpenIdText();
    NextTitreText();
    NextImageText();
    NextIdGenreText();
    NextIdPublicText();
    NextIdRayonText();
  }

  /** The literal `CreerLivre` and `ModifierLivre` build. */
  lemma LivreLiteralText(id: string, isbn: string, auteur: string, collection: string)
    ensures Literal([("id", id), ("isbn", isbn), ("auteur", auteur), ("collection", collection)])
      == "{ \"id\" : \"" + id + "\", \"isbn\" : \"" + isbn + "\", \"auteur\" : \"" + auteur + "\", \"collection\" : \"" + collection + "\"}"
  {
    LiteralIsSourceForm([("id", id), ("isbn", isbn), ("auteur", auteur), ("collection", collection)]);
    SourceForm4(("id", id), ("isbn", isbn), ("auteur", auteur), ("collection", collection));
    OpenIdText();
    NextIsbnText();
    NextAuteurText();
    NextCollectionText();
  }

  /** The literal `CreerDvd` and `ModifierDvd` build, given the duration's text. */
  lemma DvdLiteralText(id: string, synopsis: string, realisateur: string, duree: string)
    ensures Literal([("id", id), ("synopsis", synopsis), ("realisateur", realisateur), ("duree", duree)])
      == "{ \"id\" : \"" + id + "\", \"synopsis\" : \"" + synopsis + "\", \"realisateur\" : \"" + realisateur + "\", \"duree\" : \"" + duree + "\"}"
  {
    LiteralIsSourceForm([("id", id), ("synopsis", synopsis), ("realisateur", realisateur), ("duree", duree)]);
    SourceForm4(("id", id), ("synopsis", synopsis), ("realisateur", realisateur), ("duree", duree));
    OpenIdText();
    NextSynopsisText();
    NextRealisateurText();
    NextDureeText();
  }

  /** The literal `CreerRevue` and `ModifierRevue` build, given the delay's text. */
  lemma RevueLiteralText(id: string, periodicite: string, delaiMiseADispo: string)
    ensures Literal([("id", id), ("periodicite", periodicite), ("delaiMiseADispo", delaiMiseADispo)])
      == "{ \"id\" : \"" + id + "\", \"periodicite\" : \"" + periodicite + "\", \"delaiMiseADispo\" : \"" + delaiMiseADispo + "\"}"
  {
    LiteralIsSourceForm([("id", id), ("periodicite", periodicite), ("delaiMiseADispo", delaiMiseADispo)]);
    SourceForm3(("id", id), ("periodicite", periodicite), ("delaiMiseADispo", delaiMiseADispo));
    OpenIdText();
    NextPeriodiciteText();
    NextDelaiMiseADispoText();
  }

  /** `CreerDocument` POSTs the literal under `document`. */
  lemma DocumentCreateAsWritten(id: string, titre: string, image: string, idRayon: string, idPublic: string, idGenre: string)
    ensures WriteRequest(Create(Document(id, titre, image, idRayon, idPublic, idGenre)))
      == Request(POST, "document" + "/" + ("{ \"id\" : \"" + id + "\", \"titre\" : \"" + titre + "\", \"image\" : \"" + image + "\", \"idRayon\" : \"" + idRayon + "\", \"idPublic\" : \"" + idPublic + "\", \"idGenre\" : \"" + idGenre + "\"}"))
  {
    var r := Document(id, titre, image, idRayon, idPublic, idGenre);
    assert WriteRequest(Create(r)).path == "document" + "/" + Literal(CreateFields(r));
    DocumentCreateLiteralText(id, titre, image, idRayon, idPublic, idGenre);
  }

  /** `ModifierDocument` PUTs under `document/<id>`; its parameters come in
      the order of its literal. */
  lemma DocumentUpdateAsWritten(id: string, titre: string, image: string, idGenre: string, idPublic: string, idRayon: string)
    ensures WriteRequest(Update(Document(id, titre, image, idRayon, idPublic, idGenre)))
      == Request(PUT, "document" + "/" + id + "/" + ("{ \"id\" : \"" + id + "\", \"titre\" : \"" + titre + "\", \"image\" : \"" + image + "\", \"idGenre\" : \"" + idGenre + "\", \"idPublic\" : \"" + idPublic + "\", \"idRayon\" : \"" + idRayon + "\"}"))
  {
    var r := Document(id, titre, image, idRayon, idPublic, idGenre);
    assert WriteRequest(Update(r)).path == "document" + "/" + id + "/" + Literal(UpdateFields(r));
    DocumentUpdateLiteralText(id, titre, image, idGenre, idPublic, idRayon);
  }

  /** `CreerLivre` POSTs the literal under `livre`. */
  lemma LivreCreateAsWritten(id: string, isbn: string, auteur: string, collection: string)
    ensures WriteRequest(Create(Livre(id, isbn, auteur, collection)))
      == Request(POST, "livre" + "/" + ("{ \"id\" : \"" + id + "\", \"isbn\" : \"" + isbn + "\", \"auteur\" : \"" + auteur + "\", \"collection\" : \"" + collection + "\"}"))
  {
    var r := Livre(id, isbn, auteur, collection);
    assert WriteRequest(Create(r)).path == "livre" + "/" + Literal(CreateFields(r));
    LivreLiteralText(id, isbn, auteur, collection);
  }

  /** `ModifierLivre` PUTs the same literal under `livre/<id>`. */
  lemma LivreUpdateAsWritten(id: string, isbn: string, auteur: string, collection: string)
    ensures WriteRequest(Update(Livre(id, isbn, auteur, collection)))
      == Request(PUT, "livre" + "/" + id + "/" + ("{ \"id\" : \"" + id + "\", \"isbn\" : \"" + isbn + "\", \"auteur\" : \"" + auteur + "\", \"collection\" : \"" + collection + "\"}"))
  {
    var r := Livre(id, isbn, auteur, collection);
    assert WriteRequest(Update(r)).path == "livre" + "/" + id + "/" + Literal(CreateFields(r));
    LivreLiteralText(id, isbn, auteur, collection);
  }

  /** `CreerDvd` POSTs the literal under `dvd`, the duration written as a
      quoted decimal. */
  lemma DvdCreateAsWritten(id: string, synopsis: string, realisateur: string, duree: int32)
    ensures WriteRequest(Create(Dvd(id, synopsis, realisateur, duree)))
      == Request(POST, "dvd" + "/" + ("{ \"id\" : \"" + id + "\", \"synopsis\" : \"" + synopsis + "\", \"realisateur\" : \"" + realisateur + "\", \"duree\" : \"" + IntToDecimal(duree as int) + "\"}"))
  {
    var r := Dvd(id, synopsis, realisateur, duree);
    assert WriteRequest(Create(r)).path == "dvd" + "/" + Literal(CreateFields(r));
    DvdLiteralText(id, synopsis, realisateur, IntToDecimal(duree as int));
  }

  /** `ModifierDvd` PUTs the same literal under `dvd/<id>`. */
  lemma DvdUpdateAsWritten(id: string, synopsis: string, realisateur: string, duree: int32)
    ensures WriteRequest(Update(Dvd(id, synopsis, realisateur, duree)))
      == Request(PUT, "dvd" + "/" + id + "/" + ("{ \"id\" : \"" + id + "\", \"synopsis\" : \"" + synopsis + "\", \"realisateur\" : \"" + realisateur + "\", \"duree\" : \"" + IntToDecimal(duree as int) + "\"}"))
  {
    var r := Dvd(id, synopsis, realisateur, duree);
    assert WriteRequest(Update(r)).path == "dvd" + "/" + id + "/" + Literal(CreateFields(r));
    DvdLiteralText(id, synopsis, realisateur, IntToDecimal(duree as int));
  }

  /** `CreerRevue` POSTs the literal under `revue`, the delay written as a
      quoted decimal. */
  lemma RevueCreateAsWritten(id: string, periodicite: string, delai: int32)
    ensures WriteRequest(Create(Revue(id, periodicite, delai)))
      == Request(POST, "revue" + "/" + ("{ \"id\" : \"" + id + "\", \"periodicite\" : \"" + periodicite + "\", \"delaiMiseADispo\" : \"" + IntToDecimal(delai as int) + "\"}"))
  {
    var r := Revue(id, periodicite, delai);
    assert WriteRequest(Create(r)).path == "revue" + "/" + Literal(CreateFields(r));
    RevueLiteralText(id, periodicite, IntToDecimal(delai as int));
  }

  /** `ModifierRevue` PUTs the same literal under `revue/<id>`. */
  lemma RevueUpdateAsWritten(id: string, periodicite: string, delai: int32)
    ensures WriteRequest(Update(Revue(id, periodicite, delai)))
      == Request(PUT, "revue" + "/" + id + "/" + ("{ \"id\" : \"" + id + "\", \"periodicite\" : \"" + periodicite + "\", \"delaiMiseADispo\" : \"" + IntToDecimal(delai as int) + "\"}"))
  {
    var r := Revue(id, periodicite, delai);
    assert WriteRequest(Update(r)).path == "revue" + "/" + id + "/" + Literal(CreateFields(r));
    RevueLiteralText(id, periodicite, IntToDecimal(delai as int));
  }

  /** Every delete sends DELETE to the resource followed by the one-member
      literal holding the id. */
  lemma DeleteAsWritten(k: Kind, id: string)
    ensures WriteRequest(Delete(k, id)) == Request(DELETE, Resource(k) + "/" + ("{ \"id\" : \"" + id + "\"}"))
  {
    IdLiteralText(id);
  }

  /** A DVD with a three-digit duration, as the form sends it. */
  lemma CreateDvdExample()
    ensures WriteRequest(Create(Dvd("D1", "Test", "X", 120)))
      == Request(POST, "dvd" + "/" + "{ \"id\" : \"D1\", \"synopsis\" : \"Test\", \"realisateur\" : \"X\", \"duree\" : \"120\"}")
  {
    var duree: int32 := 120;
    assert IntToDecimal(duree as int) == "120" by {
      assert NatToDecimal(1) == "1";
      assert NatToDecimal(12) == "12";
    }
    DvdCreateAsWritten("D1", "Test", "X", duree);
    DvdExampleHead();
    DvdExampleTail();
  }

  lemma DvdExampleHead()
    ensures "{ \"id\" : \"" + "D1" + "\", \"synopsis\" : \"" + "Test"
      == "{ \"id\" : \"D1\", \"synopsis\" : \"Test"
  {
    var text := "{ \"id\" : \"" + "D1";
    assert text == "{ \"id\" : \"D1";
    text := text + "\", \"synopsis\" : \"";
    assert text == "{ \"id\" : \"D1\", \"synopsis\" : \"";
  }

  lemma DvdExampleTail()
    ensures "{ \"id\" : \"D1\", \"synopsis\" : \"Test" + "\", \"realisateur\" : \"" + "X"
      + "\", \"duree\" : \"" + "120" + "\"}"
      == "{ \"id\" : \"D1\", \"synopsis\" : \"Test\", \"realisateur\" : \"X\", \"duree\" : \"120\"}"
  {
    var text := "{ \"id\" : \"D1\", \"synopsis\" : \"Test" + "\", \"realisateur\" : \"";
    assert text == "{ \"id\" : \"D1\", \"synopsis\" : \"Test\", \"realisateur\" : \"";
    text := text + "X";
    assert text == "{ \"id\" : \"D1\", \"synopsis\" : \"Test\", \"realisateur\" : \"X";
    text := text + "\", \"duree\" : \"";
    assert text == "{ \"id\" : \"D1\", \"synopsis\" : \"Test\", \"realisateur\" : \"X\", \"duree\" : \"";
    text := text + "120";
    assert text == "{ \"id\" : \"D1\", \"synopsis\" : \"Test\", \"realisateur\" : \"X\", \"duree\" : \"120";
  }

  /** A book, DVD or periodical update carries the create literal unchanged. */
  lemma UpdateLiteralIsCreateLiteral(r: Record)
    requires !r.Document?
    ensures Literal(UpdateFields(r)) == Literal(CreateFields(r))
  {
  }

  /** A document update sends the same members as a create, in another
      order: the genre is moved ahead of the shelf. */
  lemma DocumentUpdateReordersMembers(id: string, titre: string, image: string, idRayon: string, idPublic: string, idGenre: string)
    ensures var r := Document(id, titre, image, idRayon, idPublic, idGenre);
      && multiset(UpdateFields(r)) == multiset(CreateFields(r))
      && UpdateFields(r)[3] == ("idGenre", idGenre) && CreateFields(r)[3] == ("idRayon", idRayon)
  {
    var r := Document(id, titre, image, idRayon, idPublic, idGenre);
    var head := [("id", id), ("titre", titre), ("image", image)];
    var g, p, y := ("idGenre", idGenre), ("idPublic", idPublic), ("idRayon", idRayon);
    calc {
      multiset(UpdateFields(r));
      { assert UpdateFields(r) == head + [g, p, y]; }
      multiset(head + [g, p, y]);
      { ReverseTailSameMultiset(head, g, p, y); }
      multiset(head + [y, p, g]);
      { assert CreateFields(r) == head + [y, p, g]; }
      multiset(CreateFields(r));
    }
  }

  lemma ReverseTailSameMultiset<T>(head: seq<T>, a: T, b: T, c: T)
    ensures multiset(head + [a, b, c]) == multiset(head + [c, b, a])
  {
    calc {
      multiset(head + [a, b, c]);
      multiset(head) + multiset([a, b, c]);
      { assert multiset([a, b, c]) == multiset([c, b, a]); }
      multiset(head) + multiset([c, b, a]);
      multiset(head + [c, b, a]);
    }
  }

  /** For every document the update literal differs from the create
      literal: after the shared id, titre and image members, one continues
      with the genre and the other with the shelf. */
  lemma DocumentLiteralsDiffer(r: Record)
    requires r.Document?
    ensures Literal(UpdateFields(r)) != Literal(CreateFields(r))
  {
    var head := "{ \"id\" : \"" + r.id + "\", \"titre\" : \"" + r.titre + "\", \"image\" : \"" + r.image;
    DocumentCreateLiteralText(r.id, r.titre, r.image, r.idRayon, r.idPublic, r.idGenre);
    DocumentUpdateLiteralText(r.id, r.titre, r.image, r.idGenre, r.idPublic, r.idRayon);
    var piece := "\", \"idRayon\" : \"";
    assert piece[6] == 'R';
    assert Literal(CreateFields(r))[|head| + 6] == 'R';
    var genrePiece := "\", \"idGenre\" : \"";
    assert genrePiece[6] == 'G';
    assert Literal(UpdateFields(r))[|head| + 6] == 'G';
  }

  /** The delete path names the id only inside the literal: the text after
      the resource is the one-member literal, not `<id>/...`. */
  lemma DeleteCarriesIdInLiteral(k: Kind, id: string)
    ensures SplitAtSlash(WriteRequest(Delete(k, id)).path) == Some((Resource(k), Literal([("id", id)])))
    ensures Quote !in id ==> ParseLiteral(Literal([("id", id)])) == Some([("id", id)])
  {
    WritePathHead(k, Literal([("id", id)]));
    if Quote !in id {
      assert AllQuoteFree([("id", id)]);
      LiteralRoundTrip([("id", id)]);
    }
  }

  /** The piece that introduces the director member. */
  const DirectorPiece: string := "\", \"realisateur\" : \""

  /** Arguments are inserted without escaping: a synopsis ending in a forged
      director member and a director starting with a forged one post the same
      request for two different DVDs. */
  lemma UnescapedDvdCollision(id: string, t: string, y: string, x: string, duree: int32)
    ensures Dvd(id, t + DirectorPiece + y, x, duree) != Dvd(id, t, y + DirectorPiece + x, duree)
    ensures WriteRequest(Create(Dvd(id, t + DirectorPiece + y, x, duree)))
         == WriteRequest(Create(Dvd(id, t, y + DirectorPiece + x, duree)))
  {
    var d := IntToDecimal(duree as int);
    DvdLiteralCollision(id, t, y, x, d);
    assert |t + DirectorPiece + y| != |t|;
  }

  lemma DvdLiteralCollision(id: string, t: string, y: string, x: string, d: string)
    ensures Literal([("id", id), ("synopsis", t + DirectorPiece + y), ("realisateur", x), ("duree", d)])
         == Literal([("id", id), ("synopsis", t), ("realisateur", y + DirectorPiece + x), ("duree", d)])
  {
    DvdLiteralText(id, t + DirectorPiece + y, x, d);
    DvdLiteralText(id, t, y + DirectorPiece + x, d);
  }
}
